=== FILE: README.md ===
# Print-quote rules in Dafny

A model of the rule core of a print-shop quoting tool. The tool walks a
folder tree of documents and instruction notes. It counts printed sheets,
plastic sleeves (비닐), USB sticks, CDs and binders, and totals them per
folder. The model covers two groups of code:

- **app.py**:
  - the sleeve count read from free text;
  - the print-layout rule read from fixed markers;
  - the printed-sheet arithmetic;
  - the per-file and per-folder totals.
- **agents/**:
  - the per-folder material rules;
  - the per-folder summary fold;
  - the keyword context classifier;
  - the ceiling sheet calculator;
  - the configurable extractors for layout, copies and materials.

Modules, one per source file, plus shared helpers:

| module | file | models |
|---|---|---|
| `Wrappers` | wrappers.dfy | `Option` |
| `Text` | text.dfy | lower-casing, `in`, whole-word `\b…\b` search, `str.join`, decimal digits |
| `Arith` | arith.dfy | floor-division facts used by the sheet counts |
| `VinylScan` | vinyl_scan.dfy | the `findall` scan of `(비닐내지\|비닐).{0,10}?(\d{1,3})` |
| `App` | app.dfy | app.py |
| `MaterialAgent` | material_agent.dfy | agents/material_agent.py |
| `AggregateAgent` | aggregate_agent.dfy | agents/aggregate_agent.py |
| `ContextAgent` | context_agent.dfy | agents/context_agent.py |
| `PageAgent` | page_agent.dfy | agents/page_agent.py |
| `ExpressionAgent` | expression_agent.dfy | agents/expression_agent.py |

How the Python is represented:

- Everything is a pure function over immutable values.
- The file system becomes data:
  - A file is its base name, its text and the page count the PDF reader reports.
  - A walk is the sequence of folders `os.walk` visits.
- Python's regular-expression search and the YAML rule table of the expression
  agent are parameters.
- A Python dict with arbitrary keys is a Dafny `map`. When it is an input, it
  is a sequence of its items.
- Exceptions are an explicit `Raises` outcome.
- Floating-point division is replaced by exact integer arithmetic. The result
  is the same for the page counts involved.

## Notes on the code

Facts about the code that a reader might not expect:

- **Duplex.** app.py prints double-sided only when 양면 is written
  (app.py:72). Single-sided is the default.
- **Two sheet counts.** The two modules round differently:
  - app.py truncates the single-sided division (app.py:92).
  - app.py halves the double-sided count with a floor (app.py:90).
  - agents/page_agent.py rounds up (agents/page_agent.py:4).
  - `PageAgent.SimplexTruncatesCeiling` bounds the single-sided difference.
    It is at most one sheet, and none exactly when the layout divides the
    page count.
- **Layouts.** app.py knows 1, 2 and 4 pages per side (app.py:73-78). The
  expression agent returns whatever number the deciding pattern or the
  number table yields (agents/expression_agent.py:17).
- **Copies.** `extract_copies` takes the first group of the first matching
  pattern. It does not look at the surrounding words
  (agents/expression_agent.py:20-25).
- **"Each" scaling.** With an "each" marker, USB and CD counts become the
  number of `.pdf`/`.pptx` names (agents/material_agent.py:6-9, 25-26). A
  folder with no such names then orders no USB or CD at all, even though
  the word is written.
- **Sleeves.**
  - Per text, app.py takes the largest stated count in 1..200
    (app.py:40-47).
  - The file name and the `.txt` text are counted separately and added
    (app.py:116-117).

## Model

| member | source | states |
|---|---|---|
| Text.Lower | app.py:32 | every ASCII capital becomes the small letter whose capital it is, every other character stays, and no capital remains |
| Text.Contains | app.py:34 | Python's `sub in s` holds exactly when `sub` occurs at some index of `s` |
| Text.ContainsAppendForeign | app.py:122-123 | appending a character that `sub` never uses neither creates nor removes an occurrence of `sub` |
| Text.ContainsWord | agents/material_agent.py:23 | the `\bw\b` search succeeds exactly when `w` occurs with no word character directly before or after it |
| VinylScan.FirstDigit | app.py:37 | the lazy gap `.{0,10}?` stops at the nearest digit reachable over at most ten non-newline characters, and fails only when no digit is reachable |
| VinylScan.RunLength | app.py:37 | `\d{1,3}` takes the digits greedily: at most three, and fewer only at the text's end or a non-digit |
| VinylScan.MatchAt | app.py:37 | a match starts exactly where 비닐 occurs and a digit is reachable within ten non-newline characters after 비닐, or after 비닐내지 when that is written; its digits start at the nearest digit after the keyword and run greedily for up to three, giving a value below 1000 |
| VinylScan.Captures | app.py:37-38 | every `findall` match is a match at its position, they come in text order and do not overlap, and no position before the first, between two, or after the last match starts a match |
| VinylScan.CapturesNeedKeyword | app.py:34-38 | text without 비닐 yields no numbers |
| VinylScan.FirstKeywordCaptured | app.py:37-38 | when no earlier position starts a match, a 비닐 whose gap reaches a digit starts the first match |
| App.InRange | app.py:40-44 | a number is kept exactly when it lies in 1..200 |
| App.Max | app.py:46-47 | the maximum is one of the values and bounds all of them |
| App.NoKeywordNoSleeves | app.py:34-38 | a stated sleeve count implies the keyword occurs |
| App.VinylCount | app.py:20-49 | 0 exactly when 비닐 is absent, 1 when present with no count in 1..200, otherwise the largest stated count, never above 200 |
| App.VinylCountSeesFirstKeyword | app.py:37-47 | when no earlier position starts a match, a 비닐 followed by a reachable number is captured first, and that number, when in 1..200, bounds the count from below |
| App.ExtractPageRule | app.py:64-80 | duplex exactly when 양면 is written; 2 per side exactly when a two-page marker is written; 4 exactly when a four-page marker is written and no two-page marker; otherwise 1 |
| App.PageRuleExtend | app.py:70-78 | further text never cancels duplex or the two-page layout, and replaces the four-page layout only with the two-page one |
| App.PrintedPages | app.py:83-92 | non-positive layout returns the count unchanged; single-sided truncates `original / perSide`; double-sided is the floor of `(original / perSide + 1) / 2`; never more sheets than pages |
| App.DuplexAtMostOriginal | app.py:89-90 | the double-sided count of a non-negative page count lies between 0 and that count |
| App.DuplexHalvesSimplex | app.py:87-92 | double-sided sheets are the single-sided sheets halved and rounded up |
| App.LastDot | app.py:101 | finds the last '.' of the name, or reports there is none |
| App.Extension | app.py:101 | `splitext` returns a suffix starting at the last dot, and a non-empty one exactly when some non-dot character precedes a dot |
| App.PageRuleTrailingSpace | app.py:122-123 | the rule read from the name plus the separating space is the rule of the name alone |
| App.Sheets | app.py:119-124 | no sheets unless the file is a PDF; a PDF is counted with the page rule of its name; never more sheets than pages |
| App.ProcessFile | app.py:99-126 | sheets only for `.pdf`, counted with its name's page rule and never more than its pages; sleeves are the name's count plus, for `.txt`, the text's count, at most 400 and at least 1 when the name mentions 비닐 |
| App.ProcessFileIgnores | app.py:106-124 | the file's text matters only for `.txt`, its page count only for `.pdf` |
| App.NamedTwoUpPdf | app.py:120-124 | a PDF whose name asks for two pages per side is counted with that layout |
| App.AddFiles | app.py:141-145 | the inner loop adds exactly the sum of its files' results to the entry |
| App.Visit | app.py:136-145 | one folder of the walk: its base name's entry, zero if new, grows by the sum of its files; every other name is untouched |
| App.AddWalk | app.py:136-145 | after the walk the keys are the starting keys and the visited base names |
| App.AddWalkSums | app.py:133-147 | each entry ends as its start plus the reference total of its folders |
| App.WalkTotals | app.py:133-147 | for any per-file result: one entry per visited base name, each the sum over every folder with that base name |
| App.ProcessFolder | app.py:133-147 | one entry per visited base name, each the sum over every folder with that base name, including empty folders |
| MaterialAgent.FileCount | agents/material_agent.py:6-9 | counts the `.pdf`/`.pptx` names; 0 exactly when none is a document, all exactly when all are |
| MaterialAgent.FileCountAppend | agents/material_agent.py:6-9 | the document count is additive over lists of names |
| MaterialAgent.MediaCount | agents/material_agent.py:22-35 | no USB/CD without the whole word; the document count with an "each" marker; otherwise 1 |
| MaterialAgent.ExtractFolderMaterials | agents/material_agent.py:3-41 | exactly the four keys, none negative; binder and sleeve are 1 exactly when mentioned in the joined lower-cased text; USB and CD follow the whole-word and "each" rule |
| MaterialAgent.MoreInstructionsKeepMaterials | agents/material_agent.py:4-39 | after adding an instruction, binder and sleeve stay 1, and a USB or CD count above 0 becomes 1 or the number of document files, which is 0 when there are none |
| MaterialAgent.GluedEachMarkerIsNotUsb | agents/material_agent.py:23-25 | "각usb" glued to Hangul is not the whole word usb, so such a folder gets no USB |
| MaterialAgent.EachUsbCountsDocuments | agents/material_agent.py:22-26 | "각 usb" with two document files among three gives 2 USB |
| AggregateAgent.NormalizeKey | agents/aggregate_agent.py:26 | a key whose lower case is usb or cd becomes USB or CD; every other key stays verbatim |
| AggregateAgent.NormalizeKeyExamples | agents/aggregate_agent.py:26 | "Usb" becomes USB, "cD" becomes CD, 비닐 and "usb2" stay unchanged |
| AggregateAgent.AddMaterials | agents/aggregate_agent.py:25-32 | the entry keeps its keys, and each counter grows by the amounts whose normalised key names it |
| AggregateAgent.AddToEntry | agents/aggregate_agent.py:17-32 | every counter of the entry grows by exactly the record's contribution and the six keys stay |
| AggregateAgent.AddRecord | agents/aggregate_agent.py:4-32 | the record's folder gains a zeroed six-key entry if new, grows by its contribution, and other folders are unchanged |
| AggregateAgent.AddRecordCounter | agents/aggregate_agent.py:4-32 | one record changes only its own folder's counters, each by the record's contribution |
| AggregateAgent.AddRecords | agents/aggregate_agent.py:4-32 | the loop keeps every entry well formed, and its folders are those of the start and of the records |
| AggregateAgent.AddRecordsSums | agents/aggregate_agent.py:4-32 | each counter ends as its start plus the reference total of the remaining records |
| AggregateAgent.Aggregate | agents/aggregate_agent.py:1-34 | one entry per folder with exactly six counters, each the sum of that folder's record contributions |
| AggregateAgent.PagesGoToOneCounter | agents/aggregate_agent.py:18-22 | pages go to at most one print counter, and to neither unless the type is exactly 흑백 or 컬러 |
| AggregateAgent.UnknownMaterialDropped | agents/aggregate_agent.py:28-30 | a material key outside the six counters changes no counter |
| AggregateAgent.AggregateOrderIrrelevant | agents/aggregate_agent.py:4-32 | two batches of records give the same summary in either order |
| AggregateAgent.SameContributionsSameSummary | agents/aggregate_agent.py:4-32 | replacing a record by one with the same folder and contributions leaves the summary unchanged |
| AggregateAgent.MissingFieldsCountAsEmpty | agents/aggregate_agent.py:19-25 | a missing "pages" acts as 0 and a missing "materials" as an empty dict |
| ContextAgent.FirstContained | agents/context_agent.py:7-9 | the first word in list order that occurs, or none occurs |
| ContextAgent.DetectContext | agents/context_agent.py:1-14 | ignore exactly when a no-print marker occurs; otherwise material-only exactly when a material word occurs, naming the first in list order; otherwise colour exactly when a colour word occurs; else monochrome |
| ContextAgent.DetectContextIgnoresCase | agents/context_agent.py:2 | the result depends only on the lower-cased text |
| ContextAgent.IgnoreDominates | agents/context_agent.py:4-5 | a no-print marker wins whatever text is added before or after |
| ContextAgent.ContextFeedsSummary | agents/context_agent.py:7-14 | every material label, after the summary's usb/cd normalisation, and every print kind is one of the summary's counters |
| PageAgent.CeilDiv | agents/page_agent.py:4 | `math.ceil(a / b)` is the least integer q with `b * q >= a` (for b > 0), the mirror bound for b < 0, and 0 for no pages |
| PageAgent.CeilDivLeast | agents/page_agent.py:4 | no smaller multiple of the layout covers the pages |
| PageAgent.CalculatePages | agents/page_agent.py:3-5 | zero pages or zero copies give 0; otherwise the result is a whole number of copy sets, each the fewest sheets holding every page, with the mirror bound for a negative layout |
| PageAgent.CalculatePagesMonotone | agents/page_agent.py:4-5 | more pages never need fewer sheets |
| PageAgent.CeilBeforeMultiply | agents/page_agent.py:4-5 | rounding before multiplying never gives fewer sheets than rounding after |
| PageAgent.CeilOrderMatters | agents/page_agent.py:4-5 | with 1 page, 2 per sheet and 2 copies the result is 2 sheets, while rounding after multiplying would give 1 |
| PageAgent.EightyFivePagesFourUp | agents/page_agent.py:3-5 | 85 pages at 4 per sheet give 22 sheets |
| PageAgent.TwentyNinePagesTwoUpThreeCopies | agents/page_agent.py:3-5 | 29 pages at 2 per sheet with 3 copies give 45 sheets |
| PageAgent.SimplexTruncatesCeiling | agents/page_agent.py:4 | app.py's single-sided count is at most one sheet below the ceiling, and equal exactly when the layout divides the page count |
| ExpressionAgent.KoreanToNum | agents/expression_agent.py:9-10 | a table hit returns its number, and a miss returns nothing |
| ExpressionAgent.FirstMatch | agents/expression_agent.py:13-15 | the first pattern in order that matches, with its group; no earlier pattern matches |
| ExpressionAgent.ExtractPagesPerSheet | agents/expression_agent.py:12-18 | 1 when nothing matches; the deciding all-digit capture as a number; any other capture looked up in the number table; a missing group raises |
| ExpressionAgent.ExtractCopies | agents/expression_agent.py:20-25 | 1 when nothing matches; otherwise `int()` of the deciding capture, raising when it is missing or not an integer |
| ExpressionAgent.Trim | agents/expression_agent.py:24 | the text `int()` reads: the leading and trailing runs of its whitespace (`\t`..`\r`, space, and the Unicode spaces beyond ASCII) removed, none left at either end |
| ExpressionAgent.ParseInt | agents/expression_agent.py:24 | succeeds exactly when the trimmed text is digits, optionally after one `+` or `-`, and then gives their decimal value with that sign |
| ExpressionAgent.ParseIntExamples | agents/expression_agent.py:24 | "abc", "1 2" and "\x1c5" fail, " -12\n" gives -12, "+7" gives 7 |
| ExpressionAgent.DigitsValueShowNat | agents/expression_agent.py:24 | reading back the digits of a natural number gives the number |
| ExpressionAgent.ParseShowInt | agents/expression_agent.py:24 | `int(str(n)) == n` for every integer |
| ExpressionAgent.FirstMatchPrefix | agents/expression_agent.py:13-17 | patterns after the deciding one are never consulted |
| ExpressionAgent.FirstMatchSkip | agents/expression_agent.py:13-17 | a leading pattern that does not match only shifts the deciding index |
| ExpressionAgent.CopiesIgnoreLaterPatterns | agents/expression_agent.py:21-24 | adding copy patterns after a matching one changes nothing |
| ExpressionAgent.PagesPerSheetIgnoresLaterPatterns | agents/expression_agent.py:13-17 | adding layout patterns after a matching one changes nothing |
| ExpressionAgent.NonMatchingPatternIrrelevant | agents/expression_agent.py:13-24 | a leading pattern that does not match changes neither result |
| ExpressionAgent.CopiesReadStatedNumber | agents/expression_agent.py:20-25 | a deciding capture that is the decimal form of n yields n copies |
| ExpressionAgent.Hits | agents/expression_agent.py:30-32 | counts the keywords that occur; 0 exactly when none does |
| ExpressionAgent.CountKeys | agents/expression_agent.py:30-32 | one material gains one per occurring keyword, appears only when it has one, and no other material changes |
| ExpressionAgent.CountMaterials | agents/expression_agent.py:29-32 | each material's count grows by its number of occurring keywords, and it is present exactly when it was or has one |
| ExpressionAgent.ExtractMaterials | agents/expression_agent.py:27-33 | a material is present exactly when one of its keywords occurs, and then holds the number of its occurring keywords; absent materials are not mapped to 0 |

## Left out

- Reading PDF page counts, app.py:56-61 (`calculate_pdf_pages`). The PDF
  library is outside the model, so the count, 0 for an unreadable file, is
  an input of `App.ProcessFile`.
- Reading a `.txt` file, app.py:106-113. The decoded text is an input, and
  decoding errors are not modelled.
- The walk itself, app.py:136-142 (`os.walk`, `os.path.basename`,
  `os.path.join`). A walk is the sequence of folders visited.
- The report printing in app.py:154-164, which is output only.
- `safe_int`, app.py:9-13. It only ever receives one to three decimal
  digits from the scan, which `int()` always reads, so its fallback never
  applies. It is modelled as the decimal value of those digits.
- Floating-point rounding of `/`, `//` and `math.ceil` (app.py:87-92,
  agents/page_agent.py:4). Exact integer arithmetic is used, which differs
  only for page counts far beyond doubles' exact range.
- Unicode case mapping, digits and word characters:
  - `str.lower`/`str.upper` are ASCII-only here, and the Korean keywords
    have no case.
  - `\d` and `str.isdigit` accept ASCII digits only. Python's accept every
    Unicode decimal digit, and `str.isdigit` also superscripts such as "²".
    So for a capture "²" `extract_pages_per_sheet` raises in `int()`
    (agents/expression_agent.py:17), while `ExpressionAgent.ExtractPagesPerSheet`
    looks it up in the number table.
  - `\b` treats ASCII letters, digits, `_` and Hangul syllables as word
    characters.
- Loading rules.yaml at import, agents/expression_agent.py:4-7, and the
  concrete patterns in it. The rule table is the `Rules` value. `re.search`
  is the `search` parameter, reporting only whether a pattern matched and
  what its first group captured.
- The explanation string of agents/page_agent.py:6, which is display text
  only.
- Records of agents/aggregate_agent.py with ill-typed values, such as
  `"pages": None` or a non-number amount, would raise in Python. Records
  here are typed, so those failures cannot arise.
- ExpressionAgent.ParseInt: underscores between digits and non-ASCII digits,
  which `int()` also accepts, are not modelled. Nor is the limit on digit
  strings: from Python 3.11 `int()` raises `ValueError` for more than
  `sys.get_int_max_str_digits()` digits (4300 by default), while the model
  returns the number. The limit depends on the interpreter's version and
  settings.
- ExpressionAgent.ExtractPagesPerSheet: for the same reason it returns a
  capture of more than 4300 digits as a number, where Python 3.11 and later
  raise `ValueError` at agents/expression_agent.py:17.
  `ExpressionAgent.ExtractCopies` likewise returns such a number at
  agents/expression_agent.py:24.
- PageAgent.CalculatePages: requires a non-zero layout. The Python raises
  `ZeroDivisionError` for 0, and that exception is not modelled.

=== FILE: aggregate_agent.dfy ===
/**
  The per-folder summary of agents/aggregate_agent.py: an additive fold of
  per-file records into one entry per folder, each entry holding exactly six
  counters. Pages go to 흑백 or 컬러 by the record's print type; materials are
  added under their key after "usb"/"cd" in any case are upper-cased, and a
  material whose key is not one of the six counters is dropped.

  A record is the Python dict with its optional keys as `Option`s; its
  materials dict is the sequence of its (key, amount) items.
 */
module AggregateAgent {
  import opened Wrappers
  import opened Text

  const MonoKey: string := "흑백"
  const ColorKey: string := "컬러"
  const SleeveKey: string := "비닐"
  const UsbKey: string := "USB"
  const CdKey: string := "CD"
  const BinderKey: string := "바인더"

  const SummaryKeys: set<string> := {MonoKey, ColorKey, SleeveKey, UsbKey, CdKey, BinderKey}

  /** A fresh folder entry: every counter at zero. */
  const EmptyEntry: map<string, int> :=
    map[MonoKey := 0, ColorKey := 0, SleeveKey := 0, UsbKey := 0, CdKey := 0, BinderKey := 0]

  datatype Record = Record(
    folder: string,
    printType: Option<string>,
    pages: Option<int>,
    materials: Option<seq<(string, int)>>)

  /** Every entry has exactly the six counters. */
  predicate WellFormed(summary: map<string, map<string, int>>) {
    forall f :: f in summary ==> summary[f].Keys == SummaryKeys
  }

  /** A key whose lower case is ASCII letters only has its upper case fixed by that lower case. */
  lemma UpperFromLower(m: string, w: string)
    requires Lower(m) == w
    requires forall i :: 0 <= i < |w| ==> IsAsciiLower(w[i])
    ensures Upper(m) == Upper(w)
  {
  }

  /** `m.upper() if m.lower() in ["usb", "cd"] else m` */
  function NormalizeKey(m: string): (k: string)
    ensures Lower(m) == "usb" ==> k == UsbKey
    ensures Lower(m) == "cd" ==> k == CdKey
    ensures Lower(m) != "usb" && Lower(m) != "cd" ==> k == m
  {
    if Lower(m) == "usb" then
      UpperFromLower(m, "usb");
      Upper(m)
    else if Lower(m) == "cd" then
      UpperFromLower(m, "cd");
      Upper(m)
    else m
  }

  /** The inner loop: adds each material amount under its normalised key,
      skipping keys the entry does not have; every counter grows by exactly
      the reference amount of the list. */
  function AddMaterials(entry: map<string, int>, mats: seq<(string, int)>): (e: map<string, int>)
    ensures e.Keys == entry.Keys
    ensures forall key :: key in entry ==> e[key] == entry[key] + MaterialSum(mats, key)
    decreases |mats|
  {
    if |mats| == 0 then entry
    else
      var k := NormalizeKey(mats[0].0);
      var entry' := if k in entry then entry[k := entry[k] + mats[0].1] else entry;
      var e := AddMaterials(entry', mats[1..]);
      assert forall key :: key in entry ==> e[key] == entry[key] + MaterialSum(mats, key) by {
        forall key | key in entry ensures e[key] == entry[key] + MaterialSum(mats, key) {
          assert entry'[key] == entry[key] + (if k == key then mats[0].1 else 0);
        }
      }
      e
  }

  /** Reference amount a material list adds to counter `key`. */
  function MaterialSum(mats: seq<(string, int)>, key: string): int
    decreases |mats|
  {
    if |mats| == 0 then 0
    else (if NormalizeKey(mats[0].0) == key then mats[0].1 else 0) + MaterialSum(mats[1..], key)
  }

  /** Reference amount one record adds to counter `key` of its folder. */
  function Contribution(r: Record, key: string): int {
    var pages := r.pages.GetOr(0);
    (if key == MonoKey && r.printType == Some(MonoKey) then pages else 0)
    + (if key == ColorKey && r.printType == Some(ColorKey) then pages else 0)
    + MaterialSum(r.materials.GetOr([]), key)
  }

  /** Adds one record's pages and materials to its folder's entry: every
      counter grows by exactly the record's contribution. */
  function AddToEntry(entry: map<string, int>, r: Record): (e: map<string, int>)
    requires entry.Keys == SummaryKeys
    ensures e.Keys == SummaryKeys
    ensures forall key :: key in SummaryKeys ==> e[key] == entry[key] + Contribution(r, key)
  {
    var pages := r.pages.GetOr(0);
    var e1 := if r.printType == Some(MonoKey) then entry[MonoKey := entry[MonoKey] + pages] else entry;
    var e2 := if r.printType == Some(ColorKey) then e1[ColorKey := e1[ColorKey] + pages] else e1;
    var mats := r.materials.GetOr([]);
    var e3 := AddMaterials(e2, mats);
    assert forall key :: key in SummaryKeys ==>
      e2[key] == entry[key] + Contribution(r, key) - MaterialSum(mats, key);
    e3
  }

  /** One iteration of the outer loop: the record's folder gets a zero entry if
      it has none, then its pages and materials are added. Other folders are
      untouched. */
  function AddRecord(summary: map<string, map<string, int>>, r: Record): (s: map<string, map<string, int>>)
    requires WellFormed(summary)
    ensures WellFormed(s)
    ensures forall f :: f in s <==> f in summary || f == r.folder
    ensures forall f :: f in summary && f != r.folder ==> s[f] == summary[f]
    ensures forall key :: key in SummaryKeys ==>
      s[r.folder][key] == (if r.folder in summary then summary[r.folder][key] else 0) + Contribution(r, key)
  {
    var entry := if r.folder in summary then summary[r.folder] else EmptyEntry;
    summary[r.folder := AddToEntry(entry, r)]
  }

  /** The loop over all records, from a given summary: the folders are those
      of the summary and of the records. */
  function AddRecords(summary: map<string, map<string, int>>, records: seq<Record>): (s: map<string, map<string, int>>)
    requires WellFormed(summary)
    ensures WellFormed(s)
    ensures forall f :: f in s <==> f in summary || f in Folders(records)
    decreases |records|
  {
    if |records| == 0 then summary
    else
      FoldersCons(records);
      AddRecords(AddRecord(summary, records[0]), records[1..])
  }

  /** The folders named by the records. */
  function Folders(records: seq<Record>): set<string> {
    set i | 0 <= i < |records| :: records[i].folder
  }

  /** Reference total of counter `key` of `folder`: the sum of the
      contributions of that folder's records. */
  function FieldTotal(records: seq<Record>, folder: string, key: string): int
    decreases |records|
  {
    if |records| == 0 then 0
    else
      (if records[0].folder == folder then Contribution(records[0], key) else 0)
      + FieldTotal(records[1..], folder, key)
  }

  lemma FoldersCons(records: seq<Record>)
    requires |records| > 0
    ensures Folders(records) == {records[0].folder} + Folders(records[1..])
  {
  }

  function Counter(summary: map<string, map<string, int>>, folder: string, key: string): int {
    if folder in summary && key in summary[folder] then summary[folder][key] else 0
  }

  /** What one record adds to counter `key` of `folder`. */
  lemma AddRecordCounter(summary: map<string, map<string, int>>, r: Record, folder: string, key: string)
    requires WellFormed(summary)
    requires key in SummaryKeys
    ensures Counter(AddRecord(summary, r), folder, key)
      == Counter(summary, folder, key) + (if r.folder == folder then Contribution(r, key) else 0)
  {
  }

  /** The fold invariant: each counter is its starting value plus the
      reference total of the remaining records. */
  lemma {:induction false} AddRecordsSums(summary: map<string, map<string, int>>, records: seq<Record>, folder: string, key: string)
    requires WellFormed(summary)
    requires key in SummaryKeys
    ensures Counter(AddRecords(summary, records), folder, key) == Counter(summary, folder, key) + FieldTotal(records, folder, key)
    decreases |records|
  {
    if |records| > 0 {
      var s1 := AddRecord(summary, records[0]);
      AddRecordsSums(s1, records[1..], folder, key);
      AddRecordCounter(summary, records[0], folder, key);
    }
  }

  /** `aggregate`: one entry per folder named by the records, each with exactly
      the six counters, each counter the sum of that folder's contributions. */
  function Aggregate(records: seq<Record>): (s: map<string, map<string, int>>)
    ensures s.Keys == Folders(records)
    ensures forall f :: f in s ==> s[f].Keys == SummaryKeys
    ensures forall f, key :: f in s && key in SummaryKeys ==> s[f][key] == FieldTotal(records, f, key)
  {
    var s := AddRecords(map[], records);
    forall f, key | f in s && key in SummaryKeys ensures s[f][key] == FieldTotal(records, f, key) {
      AddRecordsSums(map[], records, f, key);
    }
    s
  }

  /** A record adds its pages to at most one of the two print counters, and to
      neither unless its print type is exactly 흑백 or 컬러. */
  lemma PagesGoToOneCounter(r: Record)
    ensures Contribution(r, MonoKey) - MaterialSum(r.materials.GetOr([]), MonoKey) == 0
      || Contribution(r, ColorKey) - MaterialSum(r.materials.GetOr([]), ColorKey) == 0
    ensures r.printType != Some(MonoKey) && r.printType != Some(ColorKey) ==>
      Contribution(r, MonoKey) == MaterialSum(r.materials.GetOr([]), MonoKey)
      && Contribution(r, ColorKey) == MaterialSum(r.materials.GetOr([]), ColorKey)
  {
  }

  /** A material key outside the six counters never reaches any counter. */
  lemma {:induction false} UnknownMaterialDropped(mats: seq<(string, int)>, m: string, v: int, key: string)
    requires key in SummaryKeys
    requires NormalizeKey(m) !in SummaryKeys
    ensures MaterialSum(mats + [(m, v)], key) == MaterialSum(mats, key)
    decreases |mats|
  {
    if |mats| == 0 {
      assert MaterialSum([(m, v)], key) == 0;
    } else {
      assert (mats + [(m, v)])[1..] == mats[1..] + [(m, v)];
      UnknownMaterialDropped(mats[1..], m, v, key);
    }
  }

  lemma {:induction false} FieldTotalAppend(a: seq<Record>, b: seq<Record>, folder: string, key: string)
    ensures FieldTotal(a + b, folder, key) == FieldTotal(a, folder, key) + FieldTotal(b, folder, key)
    decreases |a|
  {
    if |a| == 0 {
      assert a + b == b;
    } else {
      assert (a + b)[1..] == a[1..] + b;
      FieldTotalAppend(a[1..], b, folder, key);
    }
  }

  /** Two well-formed summaries with the same folders and the same counters are equal. */
  lemma SummariesEqual(s1: map<string, map<string, int>>, s2: map<string, map<string, int>>)
    requires WellFormed(s1) && WellFormed(s2) && s1.Keys == s2.Keys
    requires forall f, key :: f in s1 && key in SummaryKeys ==> s1[f][key] == s2[f][key]
    ensures s1 == s2
  {
    forall f | f in s1 ensures s1[f] == s2[f] {
      assert s1[f].Keys == s2[f].Keys;
    }
  }

  /** The summary does not depend on the order of the records: any two batches
      aggregate to the same result whichever comes first. */
  lemma AggregateOrderIrrelevant(a: seq<Record>, b: seq<Record>)
    ensures Aggregate(a + b) == Aggregate(b + a)
  {
    var s1, s2 := Aggregate(a + b), Aggregate(b + a);
    assert s1.Keys == s2.Keys by {
      FoldersAppend(a, b);
      FoldersAppend(b, a);
    }
    forall f, key | f in s1 && key in SummaryKeys ensures s1[f][key] == s2[f][key] {
      FieldTotalAppend(a, b, f, key);
      FieldTotalAppend(b, a, f, key);
    }
    SummariesEqual(s1, s2);
  }

  /** A record without "pages" adds what one with zero pages adds, and one
      without "materials" what one with no materials adds, wherever it sits
      among the records. */
  lemma MissingFieldsCountAsEmpty(a: seq<Record>, r: Record, b: seq<Record>)
    ensures Aggregate(a + [r.(pages := None)] + b) == Aggregate(a + [r.(pages := Some(0))] + b)
    ensures Aggregate(a + [r.(materials := None)] + b) == Aggregate(a + [r.(materials := Some([]))] + b)
  {
    MissingPagesSameContribution(r);
    SameContributionsSameSummary(a, r.(pages := None), r.(pages := Some(0)), b);
    MissingMaterialsSameContribution(r);
    SameContributionsSameSummary(a, r.(materials := None), r.(materials := Some([])), b);
  }

  lemma MissingPagesSameContribution(r: Record)
    ensures forall key :: Contribution(r.(pages := None), key) == Contribution(r.(pages := Some(0)), key)
  {
  }

  lemma MissingMaterialsSameContribution(r: Record)
    ensures forall key :: Contribution(r.(materials := None), key) == Contribution(r.(materials := Some([])), key)
  {
  }

  /** Swapping one record for another of the same folder and contributions
      leaves the summary as it was. */
  lemma SameContributionsSameSummary(a: seq<Record>, r1: Record, r2: Record, b: seq<Record>)
    requires r1.folder == r2.folder
    requires forall key :: key in SummaryKeys ==> Contribution(r1, key) == Contribution(r2, key)
    ensures Aggregate(a + [r1] + b) == Aggregate(a + [r2] + b)
  {
    var s1, s2 := Aggregate(a + [r1] + b), Aggregate(a + [r2] + b);
    assert s1.Keys == s2.Keys by {
      FoldersSwap(a, r1, r2, b);
    }
    forall f, key | f in s1 && key in SummaryKeys ensures s1[f][key] == s2[f][key] {
      FieldTotalSwap(a, r1, r2, b, f, key);
    }
    SummariesEqual(s1, s2);
  }

  lemma FoldersSwap(a: seq<Record>, r1: Record, r2: Record, b: seq<Record>)
    requires r1.folder == r2.folder
    ensures Folders(a + [r1] + b) == Folders(a + [r2] + b)
  {
    FoldersAppend(a + [r1], b);
    FoldersAppend(a, [r1]);
    FoldersAppend(a + [r2], b);
    FoldersAppend(a, [r2]);
    assert Folders([r1]) == {r1.folder} by { FoldersCons([r1]); }
    assert Folders([r2]) == {r2.folder} by { FoldersCons([r2]); }
  }

  lemma FieldTotalSwap(a: seq<Record>, r1: Record, r2: Record, b: seq<Record>, f: string, key: string)
    requires r1.folder == r2.folder && Contribution(r1, key) == Contribution(r2, key)
    ensures FieldTotal(a + [r1] + b, f, key) == FieldTotal(a + [r2] + b, f, key)
  {
    FieldTotalAppend(a + [r1], b, f, key);
    FieldTotalAppend(a, [r1], f, key);
    FieldTotalAppend(a + [r2], b, f, key);
    FieldTotalAppend(a, [r2], f, key);
    assert FieldTotal([r1], f, key) == FieldTotal([r2], f, key);
  }

  /** Key normalisation on sample keys: any case of usb or cd is upper-cased,
      other keys are kept verbatim. */
  lemma NormalizeKeyExamples()
    ensures NormalizeKey("Usb") == UsbKey
    ensures NormalizeKey("cD") == CdKey
    ensures NormalizeKey("비닐") == SleeveKey
    ensures NormalizeKey("usb2") == "usb2"
  {
  }

  lemma FoldersAppend(a: seq<Record>, b: seq<Record>)
    ensures Folders(a + b) == Folders(a) + Folders(b)
  {
    forall f | f in Folders(a + b) ensures f in Folders(a) + Folders(b) {
      var i :| 0 <= i < |a + b| && (a + b)[i].folder == f;
      if i >= |a| { assert b[i - |a|].folder == f; }
    }
    forall f | f in Folders(a) ensures f in Folders(a + b) {
      var i :| 0 <= i < |a| && a[i].folder == f;
      assert (a + b)[i].folder == f;
    }
    forall f | f in Folders(b) ensures f in Folders(a + b) {
      var i :| 0 <= i < |b| && b[i].folder == f;
      assert (a + b)[|a| + i].folder == f;
    }
  }
}

=== FILE: app.dfy ===
/**
  The quoting rules of app.py: the sleeve (비닐) count read from text, the
  print-layout rule read from fixed markers, the printed-sheet arithmetic,
  and the per-file and per-folder totals.

  The file system is replaced by values: a file is its base name, the text
  it holds (used only for `.txt` files) and the page count the PDF reader
  reports (0 when the PDF cannot be read); a walk is the sequence of folders
  `os.walk` visits, each with its base name and its files.
 */
module App {
  import opened Wrappers
  import opened Text
  import VinylScan
  import opened Arith

  // ---------------------------------------------------------------------
  // Sleeve count (extract_vinyl_count)
  // ---------------------------------------------------------------------

  const SleeveKeyword: string := VinylScan.Keyword
  /** Sleeve counts outside `MinSleeves..MaxSleeves` are discarded. */
  const MinSleeves: nat := 1
  const MaxSleeves: nat := 200

  /** The numbers of `ns` within `MinSleeves..MaxSleeves`, in order. */
  function InRange(ns: seq<nat>): (vs: seq<nat>)
    ensures |vs| <= |ns|
    ensures forall v :: v in vs <==> v in ns && MinSleeves <= v <= MaxSleeves
  {
    if |ns| == 0 then []
    else (if MinSleeves <= ns[0] <= MaxSleeves then [ns[0]] else []) + InRange(ns[1..])
  }

  /** The sleeve counts stated in lower-cased text `t`: every number the scan
      captures after a keyword that lies in range. */
  function StatedSleeves(t: string): seq<nat> {
    InRange(VinylScan.Numbers(VinylScan.Captures(t, 0)))
  }

  function Max(vs: seq<nat>): (m: nat)
    requires |vs| > 0
    ensures m in vs && forall v :: v in vs ==> v <= m
  {
    if |vs| == 1 then vs[0]
    else
      assert vs == [vs[0]] + vs[1..];
      var rest := Max(vs[1..]);
      if vs[0] >= rest then vs[0] else rest
  }

  /** Text without a stated count has no stated sleeves. */
  lemma NoKeywordNoSleeves(t: string)
    ensures |StatedSleeves(t)| > 0 ==> Contains(t, SleeveKeyword)
  {
    if |StatedSleeves(t)| > 0 {
      if !Contains(t, SleeveKeyword) {
        VinylScan.CapturesNeedKeyword(t, 0);
      }
    }
  }

  /** `extract_vinyl_count`: no keyword gives 0; a keyword with no stated count
      in range gives 1; otherwise the largest stated count. */
  function VinylCount(text: string): (n: nat)
    ensures n <= MaxSleeves
    ensures n == 0 <==> !Contains(Lower(text), SleeveKeyword)
    ensures Contains(Lower(text), SleeveKeyword) && |StatedSleeves(Lower(text))| == 0 ==> n == 1
    ensures |StatedSleeves(Lower(text))| > 0 ==>
      n in StatedSleeves(Lower(text)) && forall v :: v in StatedSleeves(Lower(text)) ==> v <= n
  {
    NoKeywordNoSleeves(Lower(text));
    if |text| == 0 then 0
    else
      var t := Lower(text);
      if !Contains(t, SleeveKeyword) then 0
      else
        var valid := StatedSleeves(t);
        if |valid| > 0 then Max(valid) else 1
  }

  /** A keyword whose gap reaches a digit, with no match of the pattern
      starting before it (earlier keywords with no number after them do not
      matter): the scan's first match is at that keyword, and when its count
      is in range the result is at least that count. */
  lemma VinylCountSeesFirstKeyword(t: string, p: nat, d: nat)
    requires Lower(t) == t
    requires OccursAt(t, SleeveKeyword, p) && VinylScan.GapReaches(t, p + |SleeveKeyword|, d)
    requires forall k :: 0 <= k < p ==> VinylScan.MatchAt(t, k).None?
    ensures |VinylScan.Captures(t, 0)| > 0
    ensures var c := VinylScan.Captures(t, 0)[0];
      c.keywordAt == p && (MinSleeves <= c.value <= MaxSleeves ==> c.value <= VinylCount(t))
  {
    VinylScan.FirstKeywordCaptured(t, 0, p, d);
    var cs := VinylScan.Captures(t, 0);
    var c := cs[0];
    assert OccursAt(t, SleeveKeyword, p);
    if MinSleeves <= c.value <= MaxSleeves {
      assert VinylScan.Numbers(cs)[0] == c.value;
      assert c.value in StatedSleeves(t);
    }
  }

  // ---------------------------------------------------------------------
  // Print rule (extract_page_rule_from_text)
  // ---------------------------------------------------------------------

  const DuplexMarker: string := "양면"
  const TwoUpMarker: string := "1면에2페이지"
  const TwoUpMarkerAlt: string := "한면2페이지"
  const FourUpMarker: string := "1면에4페이지"
  const FourUpMarkerAlt: string := "한면4페이지"

  predicate TwoUp(t: string) { Contains(t, TwoUpMarker) || Contains(t, TwoUpMarkerAlt) }

  predicate FourUp(t: string) { Contains(t, FourUpMarker) || Contains(t, FourUpMarkerAlt) }

  /** `(is_duplex, per_side)`. */
  datatype PageRule = PageRule(duplex: bool, perSide: int)

  /** `extract_page_rule_from_text`: duplex when 양면 is written; two pages per
      side when a two-page marker is written, else four when a four-page marker
      is, else one. */
  function ExtractPageRule(text: string): (r: PageRule)
    ensures r.duplex <==> Contains(Lower(text), DuplexMarker)
    ensures r.perSide == 1 || r.perSide == 2 || r.perSide == 4
    ensures r.perSide == 2 <==> TwoUp(Lower(text))
    ensures r.perSide == 4 <==> !TwoUp(Lower(text)) && FourUp(Lower(text))
  {
    var t := Lower(text);
    var perSide := if TwoUp(t) then 2 else if FourUp(t) then 4 else 1;
    PageRule(Contains(t, DuplexMarker), perSide)
  }

  /** Markers are never cancelled by more text: duplex and the two-page layout
      survive anything written before or after, and so does the four-page
      layout unless a two-page marker is added. */
  lemma PageRuleExtend(a: string, b: string)
    ensures ExtractPageRule(a).duplex ==>
      ExtractPageRule(a + b).duplex && ExtractPageRule(b + a).duplex
    ensures ExtractPageRule(a).perSide == 2 ==>
      ExtractPageRule(a + b).perSide == 2 && ExtractPageRule(b + a).perSide == 2
    ensures ExtractPageRule(a).perSide == 4 && ExtractPageRule(a + b).perSide != 4 ==>
      ExtractPageRule(a + b).perSide == 2
  {
    LowerAppend(a, b);
    LowerAppend(b, a);
    var la, lb := Lower(a), Lower(b);
    if Contains(la, DuplexMarker) { ContainsExtend(la, DuplexMarker, lb); }
    if Contains(la, TwoUpMarker) { ContainsExtend(la, TwoUpMarker, lb); }
    if Contains(la, TwoUpMarkerAlt) { ContainsExtend(la, TwoUpMarkerAlt, lb); }
    if Contains(la, FourUpMarker) { ContainsExtend(la, FourUpMarker, lb); }
    if Contains(la, FourUpMarkerAlt) { ContainsExtend(la, FourUpMarkerAlt, lb); }
  }

  /** The space `process_file` puts after the name changes no marker. */
  lemma PageRuleTrailingSpace(name: string)
    ensures ExtractPageRule(name + " ") == ExtractPageRule(name)
  {
    LowerAppend(name, " ");
    assert Lower(" ") == " ";
    var l := Lower(name);
    assert Lower(name + " ") == l + [' '];
    ContainsAppendForeign(l, DuplexMarker, ' ');
    ContainsAppendForeign(l, TwoUpMarker, ' ');
    ContainsAppendForeign(l, TwoUpMarkerAlt, ' ');
    ContainsAppendForeign(l, FourUpMarker, ' ');
    ContainsAppendForeign(l, FourUpMarkerAlt, ' ');
  }

  // ---------------------------------------------------------------------
  // Printed sheets (calculate_printed_pages)
  // ---------------------------------------------------------------------

  /** `calculate_printed_pages`: a non-positive `perSide` leaves the count alone;
      single-sided is `int(original / perSide)`, truncated toward zero;
      double-sided is `floor((original / perSide + 1) / 2)`. */
  function PrintedPages(original: int, duplex: bool, perSide: int): (r: int)
    ensures perSide <= 0 ==> r == original
    ensures perSide > 0 && !duplex && original >= 0 ==> perSide * r <= original < perSide * r + perSide
    ensures perSide > 0 && !duplex && original < 0 ==> perSide * r - perSide < original <= perSide * r
    ensures perSide > 0 && duplex ==> 2 * perSide * r <= original + perSide < 2 * perSide * r + 2 * perSide
    ensures perSide > 0 && original >= 0 ==> 0 <= r <= original
  {
    if perSide <= 0 then original
    else if duplex then
      var r := (original + perSide) / (2 * perSide);
      FloorDivBounds(original + perSide, 2 * perSide);
      if original >= 0 then DuplexAtMostOriginal(original, perSide, r); r else r
    else if original >= 0 then
      FloorDivBounds(original, perSide);
      FloorDivAtMost(original, perSide);
      original / perSide
    else
      var q := (-original) / perSide;
      FloorDivBounds(-original, perSide);
      assert perSide * -q == -(perSide * q);
      -q
  }

  /** The double-sided count of a non-negative count is at most that count. */
  lemma DuplexAtMostOriginal(original: nat, perSide: int, r: int)
    requires perSide > 0
    requires 2 * perSide * r <= original + perSide < 2 * perSide * r + 2 * perSide
    ensures 0 <= r <= original
  {
    assert 2 * perSide * r + 2 * perSide == 2 * perSide * (r + 1);
    MulPositive(2 * perSide, r + 1);
    assert 2 * perSide * r - 2 * perSide * original == 2 * perSide * (r - original);
    MulPositive(2 * perSide, r - original);
    MulAtLeast(original, perSide);
  }

  /** Double-sided sheets are the single-sided sheets halved, rounded up. */
  lemma DuplexHalvesSimplex(original: nat, perSide: int)
    requires perSide > 0
    ensures PrintedPages(original, true, perSide) == (PrintedPages(original, false, perSide) + 1) / 2
  {
    var q := original / perSide;
    var rem := original % perSide;
    var h := (q + 1) / 2;
    var b := (q + 1) % 2;
    assert original + perSide == 2 * perSide * h + (b * perSide + rem) by {
      assert original == perSide * q + rem;
      assert q + 1 == 2 * h + b;
      assert (q + 1) * perSide == 2 * h * perSide + b * perSide;
    }
    assert 0 <= b * perSide + rem < 2 * perSide by {
      assert b == 0 || b == 1;
    }
    DivUnique(original + perSide, 2 * perSide, h, b * perSide + rem);
  }

  // ---------------------------------------------------------------------
  // One file (process_file)
  // ---------------------------------------------------------------------

  /** Index of the last '.' in `s`. */
  function LastDot(s: string): (r: Option<nat>)
    ensures r.Some? ==> r.value < |s| && s[r.value] == '.' && forall j :: r.value < j < |s| ==> s[j] != '.'
    ensures r.None? ==> forall j :: 0 <= j < |s| ==> s[j] != '.'
  {
    if |s| == 0 then None
    else if s[|s| - 1] == '.' then Some(|s| - 1)
    else LastDot(s[..|s| - 1])
  }

  /** `os.path.splitext(name)[1]` for a base name: from the last '.' on, unless
      only dots precede that '.' (a hidden-file name such as ".txt" has no
      extension). */
  function Extension(name: string): (e: string)
    ensures e == "" || (e[0] == '.' && EndsWith(name, e) && forall j :: 1 <= j < |e| ==> e[j] != '.')
    ensures e != "" <==> exists d, j :: 0 <= j < d < |name| && name[d] == '.' && name[j] != '.'
  {
    match LastDot(name)
    case None => ""
    case Some(d) =>
      if forall j :: 0 <= j < d ==> name[j] == '.' then ""
      else
        var e := name[d..];
        assert forall d', j :: 0 <= j < d' < |name| && name[d'] == '.' && name[j] != '.' ==> j < d;
        e
  }

  /** The bits of `process_file` a file contributes: sheets and sleeves. */
  datatype FileResult = FileResult(mono: int, sleeves: nat)

  /** The sheets of `process_file`: for a PDF, the page count under the rule
      read from the name followed by a space and the text, which is empty for
      a PDF, so that the rule is the one written in the name. */
  function Sheets(name: string, text: string, isPdf: bool, pdfPages: nat): (mono: int)
    requires isPdf ==> text == ""
    ensures !isPdf ==> mono == 0
    ensures isPdf ==> mono == PrintedPages(pdfPages, ExtractPageRule(name).duplex, ExtractPageRule(name).perSide)
    ensures 0 <= mono <= pdfPages
  {
    if isPdf then
      assert name + " " + text == name + " ";
      PageRuleTrailingSpace(name);
      var rule := ExtractPageRule(name + " " + text);
      PrintedPages(pdfPages, rule.duplex, rule.perSide)
    else 0
  }

  /** `process_file`: sleeves are read from the name and, for a `.txt` file,
      from its text; sheets are counted for a `.pdf` file only, under the rule
      written in its name. */
  function ProcessFile(name: string, contents: string, pdfPages: nat): (r: FileResult)
    ensures Lower(Extension(name)) != ".pdf" ==> r.mono == 0
    ensures Lower(Extension(name)) == ".pdf" ==>
      r.mono == PrintedPages(pdfPages, ExtractPageRule(name).duplex, ExtractPageRule(name).perSide)
    ensures 0 <= r.mono <= pdfPages
    ensures r.sleeves <= 2 * MaxSleeves
    ensures Lower(Extension(name)) == ".txt" ==> r.sleeves == VinylCount(contents) + VinylCount(name)
    ensures Lower(Extension(name)) != ".txt" ==> r.sleeves == VinylCount(name)
    ensures Contains(Lower(name), SleeveKeyword) ==> r.sleeves >= 1
  {
    var ext := Lower(Extension(name));
    var text := if ext == ".txt" then contents else "";
    assert VinylCount("") == 0;
    FileResult(Sheets(name, text, ext == ".pdf", pdfPages), VinylCount(text) + VinylCount(name))
  }

  /** The text of a file is read only when it is a `.txt` file, and the page
      count only matters for a `.pdf` file. */
  lemma ProcessFileIgnores(name: string, c1: string, c2: string, p1: nat, p2: nat)
    ensures Lower(Extension(name)) != ".txt" ==> ProcessFile(name, c1, p1) == ProcessFile(name, c2, p1)
    ensures Lower(Extension(name)) != ".pdf" ==> ProcessFile(name, c1, p1) == ProcessFile(name, c1, p2)
  {
  }

  /** A PDF whose name asks for two pages per side is printed that way. */
  lemma NamedTwoUpPdf(name: string, contents: string, pdfPages: nat)
    requires Lower(Extension(name)) == ".pdf"
    requires TwoUp(Lower(name))
    ensures ProcessFile(name, contents, pdfPages).mono
      == PrintedPages(pdfPages, Contains(Lower(name + " "), DuplexMarker), 2)
  {
    assert ExtractPageRule(name).perSide == 2;
    PageRuleExtend(name, " ");
    assert name + " " + "" == name + " ";
  }

  // ---------------------------------------------------------------------
  // A folder walk (process_folder)
  // ---------------------------------------------------------------------

  datatype WalkedFile = WalkedFile(name: string, contents: string, pdfPages: nat)

  /** One step of `os.walk`: the base name of the folder and its files. */
  datatype WalkedFolder = WalkedFolder(baseName: string, files: seq<WalkedFile>)

  /** A folder's `{"흑백": …, "비닐": …}` entry. */
  datatype Tally = Tally(mono: int, sleeves: int)

  const Zero: Tally := Tally(0, 0)

  function Plus(a: Tally, b: Tally): Tally {
    Tally(a.mono + b.mono, a.sleeves + b.sleeves)
  }

  lemma PlusZero(a: Tally)
    ensures Plus(a, Zero) == a && Plus(Zero, a) == a
  {
  }

  lemma PlusAssoc(a: Tally, b: Tally, c: Tally)
    ensures Plus(Plus(a, b), c) == Plus(a, Plus(b, c))
  {
  }

  /** What one file adds to its folder's entry: `process_file`'s results. */
  function FileTally(f: WalkedFile): Tally {
    var r := ProcessFile(f.name, f.contents, f.pdfPages);
    Tally(r.mono, r.sleeves)
  }

  // The loops below take the per-file result as a parameter `tally`;
  // `ProcessFolder` supplies `FileTally`.

  /** Reference total of a file list: the sum of its files' results. */
  function SumFiles(files: seq<WalkedFile>, tally: WalkedFile -> Tally): Tally
    decreases |files|
  {
    if |files| == 0 then Zero else Plus(tally(files[0]), SumFiles(files[1..], tally))
  }

  /** The inner loop: adds each file's result to `acc` in turn, which comes to
      `acc` plus the reference total of the files. */
  function AddFiles(acc: Tally, files: seq<WalkedFile>, tally: WalkedFile -> Tally): (r: Tally)
    ensures r == Plus(acc, SumFiles(files, tally))
    decreases |files|
  {
    if |files| == 0 then
      PlusZero(acc);
      acc
    else
      var t := tally(files[0]);
      PlusAssoc(acc, t, SumFiles(files[1..], tally));
      AddFiles(Plus(acc, t), files[1..], tally)
  }

  function Get(m: map<string, Tally>, name: string): Tally {
    if name in m then m[name] else Zero
  }

  /** One step of the outer loop: the folder's base name gets an entry (zero
      if it had none) and the folder's files are added to it. */
  function Visit(acc: map<string, Tally>, f: WalkedFolder, tally: WalkedFile -> Tally): (r: map<string, Tally>)
    ensures f.baseName in r && r[f.baseName] == Plus(Get(acc, f.baseName), SumFiles(f.files, tally))
    ensures forall name :: name != f.baseName ==> (name in r <==> name in acc) && Get(r, name) == Get(acc, name)
  {
    acc[f.baseName := AddFiles(Get(acc, f.baseName), f.files, tally)]
  }

  /** The base names a walk visits. */
  function Names(walk: seq<WalkedFolder>): set<string>
    decreases |walk|
  {
    if |walk| == 0 then {} else {walk[0].baseName} + Names(walk[1..])
  }

  lemma NamesCons(walk: seq<WalkedFolder>)
    requires |walk| > 0
    ensures Names(walk) == {walk[0].baseName} + Names(walk[1..])
  {
  }

  /** The outer loop: visits each folder in turn; the keys are those of `acc`
      and every visited base name. */
  function AddWalk(acc: map<string, Tally>, walk: seq<WalkedFolder>, tally: WalkedFile -> Tally): (r: map<string, Tally>)
    ensures forall name :: name in r <==> name in acc || name in Names(walk)
    decreases |walk|
  {
    if |walk| == 0 then acc
    else
      NamesCons(walk);
      AddWalk(Visit(acc, walk[0], tally), walk[1..], tally)
  }

  /** Reference total of a base name: the sum over every walked folder with that
      base name (folders that share a base name are merged). */
  function FolderTotal(walk: seq<WalkedFolder>, name: string, tally: WalkedFile -> Tally): Tally
    decreases |walk|
  {
    if |walk| == 0 then Zero
    else Plus(if walk[0].baseName == name then SumFiles(walk[0].files, tally) else Zero,
              FolderTotal(walk[1..], name, tally))
  }

  /** What one visit adds to the entry of `name`. */
  lemma VisitGet(acc: map<string, Tally>, f: WalkedFolder, tally: WalkedFile -> Tally, name: string)
    ensures Get(Visit(acc, f, tally), name)
      == Plus(Get(acc, name), if f.baseName == name then SumFiles(f.files, tally) else Zero)
  {
    PlusZero(Get(acc, name));
  }

  /** The fold invariant: every entry is what it held before plus the
      reference total of the rest of the walk. */
  lemma {:induction false} AddWalkSums(acc: map<string, Tally>, walk: seq<WalkedFolder>, name: string, tally: WalkedFile -> Tally)
    ensures Get(AddWalk(acc, walk, tally), name) == Plus(Get(acc, name), FolderTotal(walk, name, tally))
    decreases |walk|
  {
    if |walk| == 0 {
      PlusZero(Get(acc, name));
    } else {
      var f := walk[0];
      var acc' := Visit(acc, f, tally);
      AddWalkSums(acc', walk[1..], name, tally);
      VisitGet(acc, f, tally, name);
      PlusAssoc(Get(acc, name), if f.baseName == name then SumFiles(f.files, tally) else Zero,
                FolderTotal(walk[1..], name, tally));
    }
  }

  /** The whole walk from an empty map: every visited base name has an entry,
      even a folder without files, and each entry is the sum of the results of
      the files of every folder with that base name. */
  function WalkTotals(walk: seq<WalkedFolder>, tally: WalkedFile -> Tally): (r: map<string, Tally>)
    ensures r.Keys == Names(walk)
    ensures forall name :: name in r ==> r[name] == FolderTotal(walk, name, tally)
  {
    var r := AddWalk(map[], walk, tally);
    forall name | name in r ensures r[name] == FolderTotal(walk, name, tally) {
      AddWalkSums(map[], walk, name, tally);
    }
    r
  }

  /** `process_folder`: the walk's totals of `process_file`'s results. */
  function ProcessFolder(walk: seq<WalkedFolder>): (r: map<string, Tally>)
    ensures r.Keys == Names(walk)
    ensures forall name :: name in r ==> r[name] == FolderTotal(walk, name, FileTally)
  {
    WalkTotals(walk, FileTally)
  }
}

=== FILE: arith.dfy ===
/** Facts about integer multiplication and floor division that the sheet
    counts rely on. */
module Arith {

  /** Floor division brackets its dividend. */
  lemma FloorDivBounds(x: int, y: int)
    requires y > 0
    ensures y * (x / y) <= x < y * (x / y) + y
  {
  }

  /** Dividing a count by a positive divisor never makes it larger. */
  lemma FloorDivAtMost(x: nat, y: int)
    requires y > 0
    ensures 0 <= x / y <= x
  {
    FloorDivBounds(x, y);
    MulPositive(y, -(x / y + 1) + 1);
    MulAtLeast(x / y, y);
  }

  /** A product with a positive factor has the sign of the other factor. */
  lemma MulPositive(y: int, b: int)
    requires y > 0
    ensures b > 0 ==> y * b > 0
    ensures b <= 0 ==> y * b <= 0
  {
  }

  /** Multiplying by at least one never decreases a non-negative number. */
  lemma MulAtLeast(a: int, y: int)
    requires y >= 1
    ensures a >= 0 ==> y * a >= a
  {
  }

  /** Floor division is determined by its quotient-remainder decomposition. */
  lemma DivUnique(x: int, y: int, q: int, rem: int)
    requires y > 0 && x == y * q + rem && 0 <= rem < y
    ensures x / y == q
  {
    var q' := x / y;
    FloorDivBounds(x, y);
    assert y * q - y * q' == y * (q - q');
    MulPositive(y, q - q');
    MulPositive(y, q' - q);
  }
}

=== FILE: context_agent.dfy ===
/**
  The ordered keyword classifier of agents/context_agent.py. On the
  lower-cased text: a "no printing" marker means ignore; otherwise the first
  material keyword in list order makes the text material-only; otherwise a
  colour word means colour printing, and anything else monochrome.
 */
module ContextAgent {
  import opened Wrappers
  import opened Text
  import AggregateAgent

  const IgnoreMarkers: seq<string> := ["인쇄x", "출력x", "인쇄없음"]
  const Materials: seq<string> := ["비닐", "usb", "cd", "바인더"]
  const ColorWords: seq<string> := ["컬러", "칼라", "color"]
  const ColorKind: string := "컬러"
  const MonoKind: string := "흑백"

  /** The four result shapes: `{"ignore": True}`,
      `{"material_only": True, "material": k}` and `{"print_type": kind}`. */
  datatype Context = Ignore | MaterialOnly(material: string) | PrintType(kind: string)

  /** The index of the first word of `words`, from `i` on, that occurs in `t`. */
  function FirstContained(t: string, words: seq<string>, i: nat): (r: Option<nat>)
    requires i <= |words|
    ensures r.Some? ==> i <= r.value < |words| && Contains(t, words[r.value])
    ensures r.Some? ==> forall j :: i <= j < r.value ==> !Contains(t, words[j])
    ensures r.None? ==> forall j :: i <= j < |words| ==> !Contains(t, words[j])
    decreases |words| - i
  {
    if i == |words| then None
    else if Contains(t, words[i]) then Some(i)
    else FirstContained(t, words, i + 1)
  }

  /** `detect_context` */
  function DetectContext(text: string): (r: Context)
    ensures var t := Lower(text);
      && (r.Ignore? <==> AnyContains(t, IgnoreMarkers))
      && (r.MaterialOnly? <==> !AnyContains(t, IgnoreMarkers) && AnyContains(t, Materials))
      && (r.PrintType? ==> r.kind == ColorKind || r.kind == MonoKind)
      && (r == PrintType(ColorKind) <==>
            !AnyContains(t, IgnoreMarkers) && !AnyContains(t, Materials) && AnyContains(t, ColorWords))
      && (r == PrintType(MonoKind) <==>
            !AnyContains(t, IgnoreMarkers) && !AnyContains(t, Materials) && !AnyContains(t, ColorWords))
    ensures r.MaterialOnly? ==>
      exists i ::
        && 0 <= i < |Materials|
        && r.material == Materials[i]
        && Contains(Lower(text), Materials[i])
        && forall j :: 0 <= j < i ==> !Contains(Lower(text), Materials[j])
  {
    var t := Lower(text);
    if AnyContains(t, IgnoreMarkers) then Ignore
    else match FirstContained(t, Materials, 0)
      case Some(i) => MaterialOnly(Materials[i])
      case None =>
        if AnyContains(t, ColorWords) then PrintType(ColorKind) else PrintType(MonoKind)
  }

  /** Classification looks only at the lower-cased text. */
  lemma DetectContextIgnoresCase(text: string)
    ensures DetectContext(Lower(text)) == DetectContext(text)
  {
    LowerIdempotent(text);
  }

  /** A "no printing" marker wins whatever else is written before or after it. */
  lemma IgnoreDominates(text: string, x: string)
    requires AnyContains(Lower(text), IgnoreMarkers)
    ensures DetectContext(text + x) == Ignore
    ensures DetectContext(x + text) == Ignore
  {
    var i :| 0 <= i < |IgnoreMarkers| && Contains(Lower(text), IgnoreMarkers[i]);
    LowerAppend(text, x);
    LowerAppend(x, text);
    ContainsExtend(Lower(text), IgnoreMarkers[i], Lower(x));
    assert Contains(Lower(text + x), IgnoreMarkers[i]);
    assert Contains(Lower(x + text), IgnoreMarkers[i]);
  }

  /** Every label this classifier produces is a counter of the per-folder
      summary: the material keyword after the summary's usb/cd normalisation,
      and the print kind as it stands. */
  lemma ContextFeedsSummary(text: string)
    ensures DetectContext(text).MaterialOnly? ==>
      AggregateAgent.NormalizeKey(DetectContext(text).material) in AggregateAgent.SummaryKeys
    ensures DetectContext(text).PrintType? ==> DetectContext(text).kind in AggregateAgent.SummaryKeys
  {
  }
}

=== FILE: expression_agent.dfy ===
/**
  The configurable extractors of agents/expression_agent.py. The rule table
  loaded from rules.yaml and Python's `re.search` are parameters: `search(p,
  text)` reports whether pattern `p` matches `text` and, if it does, what its
  first group captured. Patterns are tried in their configured order and the
  first match alone decides.
 */
module ExpressionAgent {
  import opened Wrappers
  import opened Text

  /** What `re.search(p, text)` reports: no match, or a match whose first
      group either captured some text or did not take part (`None`). */
  datatype Search = NoMatch | Match(group1: Option<string>)

  /** The rule table: the word-to-number map, the two pattern lists and, per
      material, its keywords (a YAML mapping, kept as its items in order). */
  datatype Rules = Rules(
    numbers: map<string, int>,
    pagesPerSheet: seq<string>,
    copies: seq<string>,
    materials: seq<(string, seq<string>)>)

  /** How a Python call ends: with a value, or by raising. */
  datatype Outcome<T> = Returns(value: T) | Raises

  /** `korean_to_num`: `NUM_MAP.get(text)`. */
  function KoreanToNum(rules: Rules, text: string): (r: Option<int>)
    ensures r.Some? <==> text in rules.numbers
    ensures r.Some? ==> r.value == rules.numbers[text]
  {
    if text in rules.numbers then Some(rules.numbers[text]) else None
  }

  /** The first pattern from index `i` on that matches, with its first group. */
  function FirstMatch(search: (string, string) -> Search, patterns: seq<string>, text: string, i: nat)
    : (r: Option<(nat, Option<string>)>)
    requires i <= |patterns|
    ensures r.Some? ==> i <= r.value.0 < |patterns| && search(patterns[r.value.0], text) == Match(r.value.1)
    ensures r.Some? ==> forall j :: i <= j < r.value.0 ==> search(patterns[j], text).NoMatch?
    ensures r.None? ==> forall j :: i <= j < |patterns| ==> search(patterns[j], text).NoMatch?
    decreases |patterns| - i
  {
    if i == |patterns| then None
    else match search(patterns[i], text)
      case Match(g) => Some((i, g))
      case NoMatch => FirstMatch(search, patterns, text, i + 1)
  }

  /** Pattern `i` is the one that decides: it matches and none before it does. */
  ghost predicate Decides(search: (string, string) -> Search, patterns: seq<string>, text: string, i: int) {
    && 0 <= i < |patterns|
    && search(patterns[i], text).Match?
    && forall j :: 0 <= j < i ==> search(patterns[j], text).NoMatch?
  }

  /** `extract_pages_per_sheet`: 1 when no pattern matches; otherwise the
      deciding capture, read as a number when it is all digits and looked up
      in the number table (possibly absent) when not. A group that did not
      take part raises, as `None.isdigit()` does. */
  function ExtractPagesPerSheet(rules: Rules, search: (string, string) -> Search, text: string)
    : (r: Outcome<Option<int>>)
    ensures (forall j :: 0 <= j < |rules.pagesPerSheet| ==> search(rules.pagesPerSheet[j], text).NoMatch?)
      ==> r == Returns(Some(1))
    ensures forall i :: Decides(search, rules.pagesPerSheet, text, i) ==>
      match search(rules.pagesPerSheet[i], text).group1
        case None => r.Raises?
        case Some(g) => r == Returns(if IsAllDigits(g) then Some(DigitsValue(g)) else KoreanToNum(rules, g))
  {
    match FirstMatch(search, rules.pagesPerSheet, text, 0)
      case None => Returns(Some(1))
      case Some((_, None)) => Raises
      case Some((_, Some(g))) =>
        Returns(if IsAllDigits(g) then Some(DigitsValue(g)) else KoreanToNum(rules, g))
  }

  /** `extract_copies`: 1 when no pattern matches, otherwise `int()` of the
      deciding capture, which raises when the capture is missing or is not an
      integer. */
  function ExtractCopies(rules: Rules, search: (string, string) -> Search, text: string): (r: Outcome<int>)
    ensures (forall j :: 0 <= j < |rules.copies| ==> search(rules.copies[j], text).NoMatch?)
      ==> r == Returns(1)
    ensures forall i :: Decides(search, rules.copies, text, i) ==>
      match search(rules.copies[i], text).group1
        case None => r.Raises?
        case Some(g) => (r.Returns? <==> ParseInt(g).Some?) && (r.Returns? ==> r.value == ParseInt(g).value)
  {
    match FirstMatch(search, rules.copies, text, 0)
      case None => Returns(1)
      case Some((_, None)) => Raises
      case Some((_, Some(g))) =>
        match ParseInt(g)
          case None => Raises
          case Some(n) => Returns(n)
  }

  /** The whitespace `int()` strips around a number. In ASCII these are only
      tab, line feed, vertical tab, form feed, carriage return (`\t`..`\r`)
      and space: the separators `\x1c`..`\x1f`, although `str.isspace` holds
      for them, are kept and make the parse fail. Beyond ASCII, every
      character `str.isspace` accepts is stripped. */
  predicate IsSpace(c: char) {
    ('\t' <= c <= '\r') || c == ' ' || ('\U{85}' <= c && IsWideSpace(c))
  }

  /** The non-ASCII characters `str.isspace` accepts. */
  predicate IsWideSpace(c: char) {
    || c == '\U{85}' || c == '\U{A0}' || c == '\U{1680}' || ('\U{2000}' <= c <= '\U{200A}')
    || c == '\U{2028}' || c == '\U{2029}' || c == '\U{202F}' || c == '\U{205F}' || c == '\U{3000}'
  }

  /** The end of the whitespace run starting at `i`. */
  function SpacesFrom(s: string, i: nat): (k: nat)
    requires i <= |s|
    ensures i <= k <= |s|
    ensures forall j :: i <= j < k ==> IsSpace(s[j])
    ensures k < |s| ==> !IsSpace(s[k])
    decreases |s| - i
  {
    if i < |s| && IsSpace(s[i]) then SpacesFrom(s, i + 1) else i
  }

  /** The start of the whitespace run ending at `e`, going back no further than `lo`. */
  function SpacesBefore(s: string, lo: nat, e: nat): (k: nat)
    requires lo <= e <= |s|
    ensures lo <= k <= e
    ensures forall j :: k <= j < e ==> IsSpace(s[j])
    ensures k > lo ==> !IsSpace(s[k - 1])
    decreases e - lo
  {
    if e > lo && IsSpace(s[e - 1]) then SpacesBefore(s, lo, e - 1) else e
  }

  /** `t` is `s` from index `i` on with only whitespace cut off either end. */
  predicate StrippedAt(s: string, t: string, i: nat) {
    && i + |t| <= |s|
    && t == s[i..i + |t|]
    && (forall j :: 0 <= j < i ==> IsSpace(s[j]))
    && (forall j :: i + |t| <= j < |s| ==> IsSpace(s[j]))
  }

  /** `s.strip()`: `s` with its leading and trailing whitespace removed. */
  function Trim(s: string): (t: string)
    ensures |t| > 0 ==> !IsSpace(t[0]) && !IsSpace(t[|t| - 1])
    ensures StrippedAt(s, t, SpacesFrom(s, 0))
  {
    var i := SpacesFrom(s, 0);
    var e := SpacesBefore(s, i, |s|);
    s[i..e]
  }

  /** Text that neither starts nor ends with whitespace is its own strip. */
  lemma TrimNoSpace(s: string)
    requires |s| > 0 && !IsSpace(s[0]) && !IsSpace(s[|s| - 1])
    ensures Trim(s) == s
  {
  }

  /** A digit run has nothing to strip. */
  lemma TrimDigits(s: string)
    ensures IsAllDigits(s) ==> Trim(s) == s
  {
    if IsAllDigits(s) {
      TrimNoSpace(s);
    }
  }

  /** A sign followed by a digit run. */
  predicate IsSigned(t: string, sign: char) {
    |t| > 1 && t[0] == sign && IsAllDigits(t[1..])
  }

  /** Python's `int(s)` on a string: surrounding whitespace, an optional sign
      and then decimal digits; anything else is not an integer (`None`). */
  function ParseInt(s: string): (r: Option<int>)
    ensures r.Some? <==> IsAllDigits(Trim(s)) || IsSigned(Trim(s), '+') || IsSigned(Trim(s), '-')
    ensures IsAllDigits(Trim(s)) ==> r == Some(DigitsValue(Trim(s)))
    ensures IsSigned(Trim(s), '+') ==> r == Some(DigitsValue(Trim(s)[1..]))
    ensures IsSigned(Trim(s), '-') ==> r == Some(-(DigitsValue(Trim(s)[1..]) as int))
    ensures IsAllDigits(s) ==> r == Some(DigitsValue(s))
  {
    TrimDigits(s);
    var t := Trim(s);
    if IsSigned(t, '-') then
      var v: int := DigitsValue(t[1..]);
      Some(-v)
    else if IsSigned(t, '+') then Some(DigitsValue(t[1..]))
    else if IsAllDigits(t) then Some(DigitsValue(t))
    else None
  }

  /** Letters are not an integer, nor are two numbers; a sign and
      surrounding whitespace are read. */
  lemma ParseIntExamples()
    ensures ParseInt("abc") == None
    ensures ParseInt(" -12\n") == Some(-12)
    ensures ParseInt("+7") == Some(7)
    ensures ParseInt("1 2") == None
    ensures ParseInt("\U{1C}5") == None
  {
    TrimNoSpace("abc");
    assert !IsDigit("abc"[0]);
    var s := " -12\n";
    assert SpacesFrom(s, 0) == 1 by {
      assert IsSpace(s[0]) && !IsSpace(s[1]);
    }
    assert SpacesBefore(s, 1, 5) == 4 by {
      assert IsSpace(s[4]) && !IsSpace(s[3]);
    }
    assert Trim(s) == s[1..4] == "-12";
    assert "-12"[1..] == "12";
    assert DigitsValue("12") == 12 by { assert "12"[..1] == "1"; }
    TrimNoSpace("+7");
    assert "+7"[1..] == "7";
    TrimNoSpace("1 2");
    assert !IsDigit("1 2"[1]);
    TrimNoSpace("\U{1C}5");
    assert !IsDigit("\U{1C}5"[0]);
  }

  function DigitChar(d: nat): (c: char)
    requires d < 10
    ensures IsDigit(c) && c as int - '0' as int == d
  {
    ('0' as int + d) as char
  }

  /** The decimal digits of a natural number, without leading zeros. */
  function ShowNat(n: nat): (s: string)
    ensures IsAllDigits(s)
    ensures s[0] != '0' || n == 0
    decreases n
  {
    if n < 10 then [DigitChar(n)] else ShowNat(n / 10) + [DigitChar(n % 10)]
  }

  /** `str(n)` */
  function ShowInt(n: int): (s: string)
    ensures |s| > 0
  {
    if n < 0 then "-" + ShowNat(-n) else ShowNat(n)
  }

  /** Reading back the digits of a number gives the number. */
  lemma {:induction false} DigitsValueShowNat(n: nat)
    ensures DigitsValue(ShowNat(n)) == n
    decreases n
  {
    var s := ShowNat(n);
    if n >= 10 {
      DigitsValueShowNat(n / 10);
      assert s[..|s| - 1] == ShowNat(n / 10);
    }
  }

  /** `int(str(n)) == n`: every integer written by `str` parses back to itself. */
  lemma ParseShowInt(n: int)
    ensures ParseInt(ShowInt(n)) == Some(n)
  {
    var s := ShowInt(n);
    assert Trim(s) == s by {
      assert !IsSpace(s[0]) && !IsSpace(s[|s| - 1]);
      TrimNoSpace(s);
    }
    if n < 0 {
      assert IsSigned(s, '-') && DigitsValue(s[1..]) == -n by {
        DigitsValueShowNat(-n);
        assert s[1..] == ShowNat(-n);
      }
    } else {
      assert IsAllDigits(s) && DigitsValue(s) == n by {
        DigitsValueShowNat(n);
      }
    }
  }

  /** Patterns after the deciding one are never consulted. */
  lemma {:induction false} FirstMatchPrefix(search: (string, string) -> Search, ps: seq<string>, qs: seq<string>, text: string, i: nat)
    requires i <= |ps|
    requires exists j :: i <= j < |ps| && search(ps[j], text).Match?
    ensures FirstMatch(search, ps + qs, text, i) == FirstMatch(search, ps, text, i)
    decreases |ps| - i
  {
    assert (ps + qs)[i] == ps[i];
    if search(ps[i], text).NoMatch? {
      FirstMatchPrefix(search, ps, qs, text, i + 1);
    }
  }

  /** A pattern that does not match can be dropped from the front. */
  lemma {:induction false} FirstMatchSkip(search: (string, string) -> Search, p: string, ps: seq<string>, text: string, i: nat)
    requires i <= |ps|
    requires search(p, text).NoMatch?
    ensures FirstMatch(search, [p] + ps, text, i + 1) == ShiftIndex(FirstMatch(search, ps, text, i))
    decreases |ps| - i
  {
    if i < |ps| {
      assert ([p] + ps)[i + 1] == ps[i];
      FirstMatchSkip(search, p, ps, text, i + 1);
    }
  }

  function ShiftIndex(r: Option<(nat, Option<string>)>): Option<(nat, Option<string>)> {
    match r
      case None => None
      case Some((i, g)) => Some((i + 1, g))
  }

  /** Configuring more copy patterns after one that matches changes nothing. */
  lemma CopiesIgnoreLaterPatterns(rules: Rules, search: (string, string) -> Search, text: string, more: seq<string>)
    requires exists j :: 0 <= j < |rules.copies| && search(rules.copies[j], text).Match?
    ensures ExtractCopies(rules.(copies := rules.copies + more), search, text) == ExtractCopies(rules, search, text)
  {
    FirstMatchPrefix(search, rules.copies, more, text, 0);
  }

  /** Configuring more layout patterns after one that matches changes nothing. */
  lemma PagesPerSheetIgnoresLaterPatterns(rules: Rules, search: (string, string) -> Search, text: string, more: seq<string>)
    requires exists j :: 0 <= j < |rules.pagesPerSheet| && search(rules.pagesPerSheet[j], text).Match?
    ensures ExtractPagesPerSheet(rules.(pagesPerSheet := rules.pagesPerSheet + more), search, text)
      == ExtractPagesPerSheet(rules, search, text)
  {
    FirstMatchPrefix(search, rules.pagesPerSheet, more, text, 0);
  }

  /** A leading pattern that does not match the text changes nothing. */
  lemma NonMatchingPatternIrrelevant(rules: Rules, search: (string, string) -> Search, text: string, p: string)
    requires search(p, text).NoMatch?
    ensures ExtractCopies(rules.(copies := [p] + rules.copies), search, text) == ExtractCopies(rules, search, text)
    ensures ExtractPagesPerSheet(rules.(pagesPerSheet := [p] + rules.pagesPerSheet), search, text)
      == ExtractPagesPerSheet(rules, search, text)
  {
    assert ExtractCopies(rules.(copies := [p] + rules.copies), search, text)
      == ExtractCopies(rules, search, text) by {
      FirstMatchSkip(search, p, rules.copies, text, 0);
    }
    assert ExtractPagesPerSheet(rules.(pagesPerSheet := [p] + rules.pagesPerSheet), search, text)
      == ExtractPagesPerSheet(rules, search, text) by {
      FirstMatchSkip(search, p, rules.pagesPerSheet, text, 0);
    }
  }

  /** A deciding capture that is the decimal form of `n` yields `n` copies. */
  lemma CopiesReadStatedNumber(rules: Rules, search: (string, string) -> Search, text: string, i: nat, n: int)
    requires Decides(search, rules.copies, text, i)
    requires search(rules.copies[i], text).group1 == Some(ShowInt(n))
    ensures ExtractCopies(rules, search, text) == Returns(n)
  {
    ParseShowInt(n);
  }

  /** How many of `keys` occur in `text`. */
  function Hits(keys: seq<string>, text: string): (n: nat)
    ensures n <= |keys|
    ensures n == 0 <==> forall i :: 0 <= i < |keys| ==> !Contains(text, keys[i])
    decreases |keys|
  {
    if |keys| == 0 then 0
    else
      assert forall i :: 1 <= i < |keys| ==> keys[i] == keys[1..][i - 1];
      (if Contains(text, keys[0]) then 1 else 0) + Hits(keys[1..], text)
  }

  /** Reference count for material `name`: the keyword hits of its entries. */
  function TotalHits(mats: seq<(string, seq<string>)>, text: string, name: string): nat
    decreases |mats|
  {
    if |mats| == 0 then 0
    else
      (if mats[0].0 == name then Hits(mats[0].1, text) else 0) + TotalHits(mats[1..], text, name)
  }

  function Count(m: map<string, int>, name: string): int {
    if name in m then m[name] else 0
  }

  predicate AllPositive(m: map<string, int>) {
    forall k :: k in m ==> m[k] > 0
  }

  /** The inner loop: one more for `mat` per keyword that occurs. */
  function CountKeys(found: map<string, int>, mat: string, keys: seq<string>, text: string)
    : (m: map<string, int>)
    requires AllPositive(found)
    ensures AllPositive(m)
    ensures forall k :: k != mat ==> (k in m <==> k in found) && Count(m, k) == Count(found, k)
    ensures mat in m <==> mat in found || Hits(keys, text) > 0
    ensures Count(m, mat) == Count(found, mat) + Hits(keys, text)
    decreases |keys|
  {
    if |keys| == 0 then found
    else
      var found' := if Contains(text, keys[0]) then found[mat := Count(found, mat) + 1] else found;
      CountKeys(found', mat, keys[1..], text)
  }

  /** The outer loop over the materials of the rule table: a name is present
      when it was already or when its entries hit, and its count grows by the
      reference count. */
  function CountMaterials(found: map<string, int>, mats: seq<(string, seq<string>)>, text: string)
    : (m: map<string, int>)
    requires AllPositive(found)
    ensures AllPositive(m)
    ensures forall name :: name in m <==> name in found || TotalHits(mats, text, name) > 0
    ensures forall name :: Count(m, name) == Count(found, name) + TotalHits(mats, text, name)
    decreases |mats|
  {
    if |mats| == 0 then found
    else CountMaterials(CountKeys(found, mats[0].0, mats[0].1, text), mats[1..], text)
  }

  /** `extract_materials`: a material is present exactly when one of its
      keywords occurs in the text, and then counts its occurring keywords;
      materials with no occurring keyword are absent rather than zero. */
  function ExtractMaterials(rules: Rules, text: string): (m: map<string, int>)
    ensures forall name :: name in m <==> TotalHits(rules.materials, text, name) > 0
    ensures forall name :: name in m ==> m[name] == TotalHits(rules.materials, text, name)
  {
    var m := CountMaterials(map[], rules.materials, text);
    assert forall name :: name in m ==> m[name] == Count(m, name);
    m
  }
}

=== FILE: material_agent.dfy ===
/**
  The per-folder material rules of agents/material_agent.py. The folder name,
  the file names and the instruction texts are joined with spaces and
  lower-cased into one text; binder and sleeve are flags on that text, USB
  and CD need the word on its own, and an "each" marker turns them into one
  per document file.
 */
module MaterialAgent {
  import opened Text

  const SleeveKey: string := "비닐"
  const UsbKey: string := "USB"
  const CdKey: string := "CD"
  const BinderKey: string := "바인더"

  /** The keys of every result. */
  const MaterialKeys: set<string> := {SleeveKey, UsbKey, CdKey, BinderKey}

  const BinderWords: seq<string> := ["바인더", "binder"]
  const SleeveWord: string := "비닐"
  const UsbWord: string := "usb"
  const UsbEachMarkers: seq<string> := ["각usb", "usb각", "각 usb"]
  const CdWord: string := "cd"
  const CdEachMarkers: seq<string> := ["각cd", "cd각", "각 cd"]

  /** The lower-cased join of the folder name, file names and instructions. */
  function FolderText(folder: string, filenames: seq<string>, instructions: seq<string>): string {
    Lower(Join([folder] + filenames + instructions, " "))
  }

  /** A file that counts as a document: its lower-cased name ends in ".pdf" or ".pptx". */
  predicate IsDocument(name: string) {
    EndsWith(Lower(name), ".pdf") || EndsWith(Lower(name), ".pptx")
  }

  /** `file_count`: how many of the file names are documents. */
  function FileCount(filenames: seq<string>): (n: nat)
    ensures n <= |filenames|
    ensures n == 0 <==> forall i :: 0 <= i < |filenames| ==> !IsDocument(filenames[i])
    ensures n == |filenames| <==> forall i :: 0 <= i < |filenames| ==> IsDocument(filenames[i])
    decreases |filenames|
  {
    if |filenames| == 0 then 0
    else
      var rest := FileCount(filenames[1..]);
      assert forall i :: 1 <= i < |filenames| ==> filenames[i] == filenames[1..][i - 1];
      (if IsDocument(filenames[0]) then 1 else 0) + rest
  }

  /** Counting documents distributes over concatenation of the file lists. */
  lemma {:induction false} FileCountAppend(a: seq<string>, b: seq<string>)
    ensures FileCount(a + b) == FileCount(a) + FileCount(b)
    decreases |a|
  {
    if |a| > 0 {
      assert (a + b)[1..] == a[1..] + b;
      FileCountAppend(a[1..], b);
    } else {
      assert a + b == b;
    }
  }

  /** The USB and CD rule: nothing without the whole word, one per document
      file when an "each" marker is written, otherwise one. */
  function MediaCount(t: string, word: string, eachMarkers: seq<string>, fileCount: nat): (n: nat)
    ensures !ContainsWord(t, word) ==> n == 0
    ensures ContainsWord(t, word) && AnyContains(t, eachMarkers) ==> n == fileCount
    ensures ContainsWord(t, word) && !AnyContains(t, eachMarkers) ==> n == 1
  {
    if !ContainsWord(t, word) then 0
    else if AnyContains(t, eachMarkers) then fileCount
    else 1
  }

  /** The result dict of `extract_folder_materials` from its four values. */
  function MaterialMap(sleeve: nat, usb: nat, cd: nat, binder: nat): (m: map<string, int>)
    ensures m.Keys == MaterialKeys
    ensures m[SleeveKey] == sleeve && m[UsbKey] == usb && m[CdKey] == cd && m[BinderKey] == binder
  {
    assert SleeveKey != CdKey by { assert SleeveKey[0] != CdKey[0]; }
    assert UsbKey != BinderKey by { assert UsbKey[0] != BinderKey[0]; }
    map[SleeveKey := sleeve, UsbKey := usb, CdKey := cd, BinderKey := binder]
  }

  /** `extract_folder_materials`: always the four keys; 바인더 and 비닐 are 1
      when mentioned anywhere and 0 otherwise; USB and CD follow `MediaCount`
      with the number of document files. */
  function ExtractFolderMaterials(folder: string, filenames: seq<string>, instructions: seq<string>)
    : (m: map<string, int>)
    ensures m.Keys == MaterialKeys
    ensures forall k :: k in m ==> m[k] >= 0
    ensures var t := FolderText(folder, filenames, instructions);
      && (m[BinderKey] == 1 <==> AnyContains(t, BinderWords))
      && (m[BinderKey] == 0 <==> !AnyContains(t, BinderWords))
      && (m[SleeveKey] == 1 <==> Contains(t, SleeveWord))
      && (m[SleeveKey] == 0 <==> !Contains(t, SleeveWord))
      && (!ContainsWord(t, UsbWord) ==> m[UsbKey] == 0)
      && (ContainsWord(t, UsbWord) && AnyContains(t, UsbEachMarkers) ==> m[UsbKey] == FileCount(filenames))
      && (ContainsWord(t, UsbWord) && !AnyContains(t, UsbEachMarkers) ==> m[UsbKey] == 1)
      && (!ContainsWord(t, CdWord) ==> m[CdKey] == 0)
      && (ContainsWord(t, CdWord) && AnyContains(t, CdEachMarkers) ==> m[CdKey] == FileCount(filenames))
      && (ContainsWord(t, CdWord) && !AnyContains(t, CdEachMarkers) ==> m[CdKey] == 1)
  {
    var t := FolderText(folder, filenames, instructions);
    var fileCount := FileCount(filenames);
    MaterialMap(
      if Contains(t, SleeveWord) then 1 else 0,
      MediaCount(t, UsbWord, UsbEachMarkers, fileCount),
      MediaCount(t, CdWord, CdEachMarkers, fileCount),
      if AnyContains(t, BinderWords) then 1 else 0)
  }

  /** Adding an instruction never withdraws a material: binder and sleeve stay
      at 1, and a USB or CD word stays detected (its count is then 1 or the
      number of document files). */
  lemma MoreInstructionsKeepMaterials(folder: string, filenames: seq<string>, instructions: seq<string>, x: string)
    ensures var before := ExtractFolderMaterials(folder, filenames, instructions);
      var after := ExtractFolderMaterials(folder, filenames, instructions + [x]);
      && (before[BinderKey] == 1 ==> after[BinderKey] == 1)
      && (before[SleeveKey] == 1 ==> after[SleeveKey] == 1)
      && (before[UsbKey] > 0 ==> after[UsbKey] == 1 || after[UsbKey] == FileCount(filenames))
      && (before[CdKey] > 0 ==> after[CdKey] == 1 || after[CdKey] == FileCount(filenames))
  {
    var parts := [folder] + filenames + instructions;
    assert [folder] + filenames + (instructions + [x]) == parts + [x];
    JoinSnoc(parts, " ", x);
    var joined := Join(parts, " ");
    assert Join(parts + [x], " ") == joined + " " + x;
    LowerAppend(joined, " " + x);
    assert joined + " " + x == joined + (" " + x);
    var t := Lower(joined);
    var t' := FolderText(folder, filenames, instructions + [x]);
    assert t' == t + Lower(" " + x);
    assert Lower(" " + x) == [' '] + Lower(x);
    assert t' == t + [' '] + Lower(x);
    if AnyContains(t, BinderWords) {
      var i :| 0 <= i < |BinderWords| && Contains(t, BinderWords[i]);
      ContainsExtend(t, BinderWords[i], Lower(" " + x));
    }
    if Contains(t, SleeveWord) {
      ContainsExtend(t, SleeveWord, Lower(" " + x));
    }
    if ContainsWord(t, UsbWord) {
      ContainsWordAppend(t, UsbWord, ' ', Lower(x));
    }
    if ContainsWord(t, CdWord) {
      ContainsWordAppend(t, CdWord, ' ', Lower(x));
    }
  }

  /** `\b` counts Hangul as part of a word, so "각usb" glued together is not the
      word "usb": a folder named only that gets no USB. */
  lemma GluedEachMarkerIsNotUsb()
    ensures ExtractFolderMaterials("각usb", [], [])[UsbKey] == 0
  {
  }

  lemma ExampleJoin()
    ensures Join(["usb", "a.pdf", "b.PPTX", "c.txt", "각 usb"], " ") == "usb a.pdf b.PPTX c.txt 각 usb"
  {
  }

  lemma ExampleFolderText()
    ensures FolderText("usb", ["a.pdf", "b.PPTX", "c.txt"], ["각 usb"]) == "usb a.pdf b.pptx c.txt 각 usb"
  {
    assert ["usb"] + ["a.pdf", "b.PPTX", "c.txt"] + ["각 usb"] == ["usb", "a.pdf", "b.PPTX", "c.txt", "각 usb"];
    ExampleJoin();
    ExampleLower();
  }

  lemma ExampleLower()
    ensures Lower("usb a.pdf b.PPTX c.txt 각 usb") == "usb a.pdf b.pptx c.txt 각 usb"
  {
    var head, upper, tail := "usb a.pdf b.", "PPTX", " c.txt 각 usb";
    assert "usb a.pdf b.PPTX c.txt 각 usb" == head + upper + tail;
    LowerAppend(head + upper, tail);
    LowerAppend(head, upper);
    assert Lower(upper) == "pptx";
    LowerNoUpper(head);
    LowerNoUpper(tail);
  }

  lemma ExampleDocuments()
    ensures IsDocument("a.pdf") && IsDocument("b.PPTX") && !IsDocument("c.txt")
  {
    LowerNoUpper("a.pdf");
    assert EndsWith("a.pdf", ".pdf");
    LowerNoUpper("c.txt");
    assert !EndsWith("c.txt", ".pdf") by { assert "c.txt"[1..][1] != ".pdf"[1]; }
    assert !EndsWith("c.txt", ".pptx") by { assert "c.txt"[0] != ".pptx"[0]; }
    ExampleLowerPptx();
    assert EndsWith("b.pptx", ".pptx");
  }

  lemma ExampleLowerPptx()
    ensures Lower("b.PPTX") == "b.pptx"
  {
    assert "b.PPTX" == "b." + "PPTX";
    LowerAppend("b.", "PPTX");
    LowerNoUpper("b.");
  }

  lemma ExampleFileCount()
    ensures FileCount(["a.pdf", "b.PPTX", "c.txt"]) == 2
  {
    ExampleDocuments();
    assert ["a.pdf", "b.PPTX", "c.txt"][1..] == ["b.PPTX", "c.txt"];
    assert ["b.PPTX", "c.txt"][1..] == ["c.txt"];
  }

  /** A spaced "each" marker with two documents gives one USB per document. */
  lemma EachUsbCountsDocuments()
    ensures ExtractFolderMaterials("usb", ["a.pdf", "b.PPTX", "c.txt"], ["각 usb"])[UsbKey] == 2
  {
    var t := FolderText("usb", ["a.pdf", "b.PPTX", "c.txt"], ["각 usb"]);
    ExampleFolderText();
    assert WordAt(t, UsbWord, 0);
    assert OccursAt(t, "각 usb", |t| - 5);
    assert Contains(t, UsbEachMarkers[2]);
    ExampleFileCount();
  }
}

=== FILE: page_agent.dfy ===
/**
  The sheet count of agents/page_agent.py: the raw page count is divided by
  the pages printed per sheet and rounded up once, and only then multiplied
  by the number of copies. The division is exact rational division here.
 */
module PageAgent {
  import opened Arith
  import App

  /** `math.ceil(a / b)`: the least integer not below the quotient. */
  function CeilDiv(a: int, b: int): (q: int)
    requires b != 0
    ensures b > 0 ==> b * (q - 1) < a <= b * q
    ensures b < 0 ==> b * q <= a < b * (q - 1)
    ensures a == 0 ==> q == 0
  {
    if b > 0 then
      FloorDivBounds(-a, b);
      assert b * -((-a) / b) == -(b * ((-a) / b));
      assert a == 0 ==> (-a) / b == 0 by {
        if a == 0 { DivUnique(0, b, 0, 0); }
      }
      -((-a) / b)
    else
      FloorDivBounds(a, -b);
      assert b * -(a / -b) == (-b) * (a / -b);
      assert a == 0 ==> a / (-b) == 0 by {
        if a == 0 { DivUnique(0, -b, 0, 0); }
      }
      -(a / (-b))
  }

  /** No integer strictly between consecutive multiples of `b` reaches `a`:
      every `m` with `b * m >= a` is at least the ceiling. */
  lemma CeilDivLeast(a: int, b: int, m: int)
    requires b > 0 && b * m >= a
    ensures CeilDiv(a, b) <= m
  {
  }

  /** `calculate_pages(raw_pages, pages_per_sheet, copies)[0]`: a whole number
      of copy sets, each the fewest sheets that hold every raw page. */
  function CalculatePages(raw: int, pps: int, copies: int): (final: int)
    requires pps != 0
    ensures raw == 0 ==> final == 0
    ensures copies == 0 ==> final == 0
    ensures copies != 0 ==> final % copies == 0
    ensures pps > 0 && copies != 0 ==>
      pps * (final / copies) >= raw && pps * (final / copies - 1) < raw
    ensures pps < 0 && copies != 0 ==>
      pps * (final / copies) <= raw < pps * (final / copies - 1)
  {
    var sheets := CeilDiv(raw, pps);
    DivExact(sheets, copies);
    sheets * copies
  }

  /** A product divided by one of its non-zero factors gives back the other. */
  lemma DivExact(a: int, c: int)
    ensures c != 0 ==> (a * c) / c == a && (a * c) % c == 0
  {
    if c > 0 {
      DivUnique(a * c, c, a, 0);
    } else if c < 0 {
      DivExactNegative(a * c, c, a);
    }
  }

  /** Euclidean division by a negative divisor, for an exact multiple. */
  lemma DivExactNegative(x: int, c: int, a: int)
    requires c < 0 && x == a * c
    ensures x / c == a && x % c == 0
  {
    var q, r := x / c, x % c;
    assert x == (-c) * (-q) + r by {
      assert x == c * q + r;
    }
    DivUnique(x, -c, -q, r);
    assert x == (-c) * (-a) + 0;
    DivUnique(x, -c, -a, 0);
  }

  /** More raw pages never need fewer sheets. */
  lemma CalculatePagesMonotone(raw1: int, raw2: int, pps: int, copies: int)
    requires raw1 <= raw2 && pps > 0 && copies >= 0
    ensures CalculatePages(raw1, pps, copies) <= CalculatePages(raw2, pps, copies)
  {
    var q1, q2 := CeilDiv(raw1, pps), CeilDiv(raw2, pps);
    CeilDivLeast(raw1, pps, q2);
    assert q1 * copies <= q2 * copies by {
      assert q2 * copies - q1 * copies == (q2 - q1) * copies;
      MulAtLeast(q2 - q1, 1);
      if copies > 0 { MulPositive(copies, q2 - q1); }
    }
  }

  /** Rounding up before multiplying never gives fewer sheets than rounding
      the multiplied count once. */
  lemma CeilBeforeMultiply(raw: int, pps: int, copies: int)
    requires pps > 0 && copies >= 0
    ensures CalculatePages(raw, pps, copies) >= CeilDiv(raw * copies, pps)
  {
    var q := CeilDiv(raw, pps);
    assert pps * (q * copies) >= raw * copies by {
      assert pps * (q * copies) - raw * copies == (pps * q - raw) * copies;
      if copies > 0 {
        MulPositive(copies, pps * q - raw);
      }
    }
    CeilDivLeast(raw * copies, pps, q * copies);
  }

  /** The two orders differ: one page, two per sheet, two copies takes two
      sheets, while rounding after multiplying would give one. */
  lemma CeilOrderMatters()
    ensures CalculatePages(1, 2, 2) == 2
    ensures CeilDiv(1 * 2, 2) == 1
  {
  }

  /** 85 pages four to a sheet make 22 sheets. */
  lemma EightyFivePagesFourUp()
    ensures CalculatePages(85, 4, 1) == 22
  {
  }

  /** 29 pages two to a sheet make 15 sheets, 45 for three copies. */
  lemma TwentyNinePagesTwoUpThreeCopies()
    ensures CalculatePages(29, 2, 3) == 45
  {
  }

  /** app.py truncates the single-sided division where this agent rounds up:
      for a non-negative count the two differ by at most one sheet, and agree
      exactly when the layout divides the page count. */
  lemma SimplexTruncatesCeiling(raw: int, pps: int)
    requires raw >= 0 && pps > 0
    ensures var lo, hi := App.PrintedPages(raw, false, pps), CalculatePages(raw, pps, 1);
      lo <= hi <= lo + 1 && (hi == lo <==> raw % pps == 0)
  {
    var lo, q := App.PrintedPages(raw, false, pps), CeilDiv(raw, pps);
    assert CalculatePages(raw, pps, 1) == q;
    CeilDivLeast(raw, pps, lo + 1);
    assert pps * (q - lo) == pps * q - pps * lo;
    MulPositive(pps, q - lo + 1);
    if q == lo {
      assert raw == pps * lo;
      DivUnique(raw, pps, lo, 0);
    }
    if raw % pps == 0 {
      DivUnique(raw, pps, lo, raw - pps * lo);
      assert raw == pps * lo;
      CeilDivLeast(raw, pps, lo);
    }
  }
}

=== FILE: text.dfy ===
/**
  String helpers shared by every rule: lower-casing, substring search,
  whole-word search, joining and decimal digits.

  Python's `str.lower()` is approximated by ASCII lower-casing (Hangul has no
  case, so the Korean keywords are unaffected), `\d` by the ASCII digits, and
  the `\b` word characters by ASCII letters, digits, `_` and the Hangul
  syllable block U+AC00..U+D7A3.
 */
module Text {

  predicate IsAsciiUpper(c: char) { 'A' <= c <= 'Z' }

  predicate IsAsciiLower(c: char) { 'a' <= c <= 'z' }

  predicate IsDigit(c: char) { '0' <= c <= '9' }

  predicate IsHangulSyllable(c: char) { '\U{AC00}' <= c <= '\U{D7A3}' }

  /** A character that `\b` treats as part of a word. */
  predicate IsWordChar(c: char) {
    IsAsciiUpper(c) || IsAsciiLower(c) || IsDigit(c) || c == '_' || IsHangulSyllable(c)
  }

  function LowerChar(c: char): char {
    if IsAsciiUpper(c) then (c as int - 'A' as int + 'a' as int) as char else c
  }

  function UpperChar(c: char): char {
    if IsAsciiLower(c) then (c as int - 'a' as int + 'A' as int) as char else c
  }

  /** `s.lower()`: capitals become the small letter whose capital they are,
      every other character stays. */
  function Lower(s: string): (r: string)
    ensures |r| == |s|
    ensures forall i :: 0 <= i < |s| ==> !IsAsciiUpper(r[i])
    ensures forall i :: 0 <= i < |s| && !IsAsciiUpper(s[i]) ==> r[i] == s[i]
    ensures forall i :: 0 <= i < |s| && IsAsciiUpper(s[i]) ==> IsAsciiLower(r[i]) && UpperChar(r[i]) == s[i]
  {
    seq(|s|, i requires 0 <= i < |s| => LowerChar(s[i]))
  }

  /** `s.upper()` */
  function Upper(s: string): string {
    seq(|s|, i requires 0 <= i < |s| => UpperChar(s[i]))
  }

  /** Lower-casing distributes over concatenation. */
  lemma LowerAppend(a: string, b: string)
    ensures Lower(a + b) == Lower(a) + Lower(b)
  {
  }

  /** Text without ASCII capitals is already lower case. */
  lemma LowerNoUpper(s: string)
    requires forall i :: 0 <= i < |s| ==> !IsAsciiUpper(s[i])
    ensures Lower(s) == s
  {
  }

  /** Lower-casing twice is lower-casing once. */
  lemma LowerIdempotent(s: string)
    ensures Lower(Lower(s)) == Lower(s)
  {
  }

  /** `sub` sits in `s` starting at index `i`. */
  predicate OccursAt(s: string, sub: string, i: int) {
    0 <= i && i + |sub| <= |s| && s[i..i + |sub|] == sub
  }

  /** Python's `sub in s`: the scan from the left finds `sub` exactly when it
      occurs at some index. */
  predicate Contains(s: string, sub: string)
    ensures Contains(s, sub) <==> exists i :: OccursAt(s, sub, i)
    decreases |s|
  {
    OccursShift(s, sub);
    sub <= s || (|s| > 0 && Contains(s[1..], sub))
  }

  /** An occurrence is at index 0 (a prefix) or, one further on, an occurrence
      in the tail. */
  lemma OccursShift(s: string, sub: string)
    ensures sub <= s <==> OccursAt(s, sub, 0)
    ensures (exists i :: OccursAt(s, sub, i)) <==> OccursAt(s, sub, 0) || exists i :: 1 <= i && OccursAt(s, sub, i)
    ensures |s| == 0 ==> forall i :: 1 <= i ==> !OccursAt(s, sub, i)
    ensures |s| > 0 ==> ((exists i :: OccursAt(s[1..], sub, i)) <==> exists i :: 1 <= i && OccursAt(s, sub, i))
  {
    if |s| > 0 {
      if exists i :: OccursAt(s[1..], sub, i) {
        var i :| OccursAt(s[1..], sub, i);
        assert s[1..][i..i + |sub|] == s[i + 1..i + 1 + |sub|];
        assert OccursAt(s, sub, i + 1);
      }
      if exists i :: 1 <= i && OccursAt(s, sub, i) {
        var i :| 1 <= i && OccursAt(s, sub, i);
        assert s[1..][i - 1..i - 1 + |sub|] == s[i..i + |sub|];
        assert OccursAt(s[1..], sub, i - 1);
      }
    }
  }

  /** Text that contains `sub` still does after anything is added on either side. */
  lemma ContainsExtend(a: string, sub: string, b: string)
    requires Contains(a, sub)
    ensures Contains(a + b, sub) && Contains(b + a, sub)
  {
    var i :| OccursAt(a, sub, i);
    assert (a + b)[i..i + |sub|] == a[i..i + |sub|];
    assert OccursAt(a + b, sub, i);
    assert (b + a)[|b| + i..|b| + i + |sub|] == a[i..i + |sub|];
    assert OccursAt(b + a, sub, |b| + i);
  }

  /** A character that `sub` never uses, appended to `s`, creates no
      occurrence of `sub`. */
  lemma ContainsAppendForeign(s: string, sub: string, c: char)
    requires forall j :: 0 <= j < |sub| ==> sub[j] != c
    ensures Contains(s + [c], sub) <==> Contains(s, sub)
  {
    if Contains(s + [c], sub) {
      if |sub| == 0 {
        assert OccursAt(s, sub, 0);
      } else {
        var i :| OccursAt(s + [c], sub, i);
        OccursBeforeForeign(s, sub, c, i);
      }
    }
    if Contains(s, sub) {
      ContainsExtend(s, sub, [c]);
    }
  }

  /** An occurrence in `s + [c]` of text without `c` lies inside `s`. */
  lemma OccursBeforeForeign(s: string, sub: string, c: char, i: int)
    requires |sub| > 0
    requires forall j :: 0 <= j < |sub| ==> sub[j] != c
    requires OccursAt(s + [c], sub, i)
    ensures OccursAt(s, sub, i)
  {
    var t := s + [c];
    var last := i + |sub| - 1;
    assert t[last] == t[i..i + |sub|][|sub| - 1] == sub[|sub| - 1] != c;
    assert last != |s|;
    assert t[i..i + |sub|] == s[i..i + |sub|];
  }

  /** `any(k in t for k in words)` */
  predicate AnyContains(t: string, words: seq<string>) {
    exists i :: 0 <= i < |words| && Contains(t, words[i])
  }

  /** `s.endswith(suffix)` */
  predicate EndsWith(s: string, suffix: string) {
    |suffix| <= |s| && s[|s| - |suffix|..] == suffix
  }

  /** `sep.join(parts)` */
  function Join(parts: seq<string>, sep: string): string
    decreases |parts|
  {
    if |parts| == 0 then ""
    else if |parts| == 1 then parts[0]
    else parts[0] + sep + Join(parts[1..], sep)
  }

  /** Joining one more part appends the separator and the part. */
  lemma {:induction false} JoinSnoc(parts: seq<string>, sep: string, x: string)
    requires |parts| > 0
    ensures Join(parts + [x], sep) == Join(parts, sep) + sep + x
    decreases |parts|
  {
    if |parts| == 1 {
      assert (parts + [x])[1..] == [x];
    } else {
      assert (parts + [x])[1..] == parts[1..] + [x];
      JoinSnoc(parts[1..], sep, x);
    }
  }

  /** `w` sits at `i` with no word character directly on either side (`\bw\b`). */
  predicate WordAt(s: string, w: string, i: int) {
    && OccursAt(s, w, i)
    && (i == 0 || !IsWordChar(s[i - 1]))
    && (i + |w| == |s| || !IsWordChar(s[i + |w|]))
  }

  /** Scans `s` from index `from` for a whole-word occurrence of `w`; it finds
      one exactly when one starts at or after `from`. */
  predicate ContainsWordFrom(s: string, w: string, from: nat)
    ensures ContainsWordFrom(s, w, from) <==> exists i :: from <= i && WordAt(s, w, i)
    decreases |s| - from
  {
    from <= |s| && (WordAt(s, w, from) || ContainsWordFrom(s, w, from + 1))
  }

  /** Python's `re.search(r"\b" + w + r"\b", s) is not None` for a literal
      word `w`: some occurrence of `w` has no word character on either side. */
  predicate ContainsWord(s: string, w: string)
    ensures ContainsWord(s, w) <==> exists i :: WordAt(s, w, i)
  {
    ContainsWordFrom(s, w, 0)
  }

  /** A whole word survives appending a separator and more text. */
  lemma ContainsWordAppend(s: string, w: string, sep: char, rest: string)
    requires ContainsWord(s, w)
    requires !IsWordChar(sep)
    ensures ContainsWord(s + [sep] + rest, w)
  {
    var i :| WordAt(s, w, i);
    var t := s + [sep] + rest;
    assert t[i..i + |w|] == s[i..i + |w|];
    assert i + |w| < |t| && (t[i + |w|] == sep || t[i + |w|] == s[i + |w|]);
    assert WordAt(t, w, i);
  }

  /** The decimal value of a run of ASCII digits. */
  function DigitsValue(s: string): (n: nat)
    requires forall i :: 0 <= i < |s| ==> IsDigit(s[i])
    ensures n < Pow10(|s|)
    decreases |s|
  {
    if |s| == 0 then 0
    else
      assert IsDigit(s[|s| - 1]);
      var high := DigitsValue(s[..|s| - 1]);
      assert high * 10 + 9 < Pow10(|s| - 1) * 10 by {
        assert high + 1 <= Pow10(|s| - 1);
      }
      high * 10 + (s[|s| - 1] as int - '0' as int)
  }

  function Pow10(k: nat): (p: nat)
    ensures p >= 1
  {
    if k == 0 then 1 else 10 * Pow10(k - 1)
  }

  /** Python's `s.isdigit()` for ASCII text: non-empty and all digits. */
  predicate IsAllDigits(s: string) {
    |s| > 0 && forall i :: 0 <= i < |s| ==> IsDigit(s[i])
  }
}

=== FILE: vinyl_scan.dfy ===
/**
  The number scan behind the sleeve count of app.py: Python's
  `re.findall(r"(비닐내지|비닐).{0,10}?(\d{1,3})", text)` written as an
  explicit left-to-right scan.

  At each position the alternation tries the long keyword 비닐내지 first and
  then 비닐. After the keyword the lazy gap `.{0,10}?` skips the fewest
  non-newline characters (at most ten) that lead to a digit, and `\d{1,3}`
  then takes up to three digits greedily. `findall` resumes right after the
  digits; a position where no match starts is stepped over by one character.
 */
module VinylScan {
  import opened Wrappers
  import opened Text

  const Keyword: string := "비닐"
  const LongKeyword: string := "비닐내지"
  /** The bound of the lazy gap `.{0,10}?`. */
  const MaxGap: nat := 10
  /** The bound of the greedy `\d{1,3}`. */
  const MaxDigits: nat := 3

  /** The gap starting at `a` can end on the digit at `d`: at most `MaxGap`
      characters lie between, and none of them is a newline. */
  ghost predicate GapReaches(t: string, a: nat, d: nat) {
    && a <= d <= a + MaxGap
    && d < |t|
    && IsDigit(t[d])
    && forall j :: a <= j < d ==> t[j] != '\n'
  }

  /** Some digit can end the gap that starts at `a`. */
  ghost predicate GapFindsDigit(t: string, a: nat) {
    exists d :: GapReaches(t, a, d)
  }

  /** The lazy gap: the nearest digit the gap from `a` reaches, having already
      skipped `k` characters that were neither digits nor newlines. */
  function FirstDigit(t: string, a: nat, k: nat): (r: Option<nat>)
    requires k <= MaxGap && a + k <= |t|
    requires forall j :: a <= j < a + k ==> !IsDigit(t[j]) && t[j] != '\n'
    ensures r.Some? ==> GapReaches(t, a, r.value)
    ensures r.Some? ==> forall j :: a <= j < r.value ==> !IsDigit(t[j])
    ensures r.None? ==> forall d :: !GapReaches(t, a, d)
    decreases MaxGap - k
  {
    if a + k == |t| then None
    else if IsDigit(t[a + k]) then Some(a + k)
    else if k == MaxGap || t[a + k] == '\n' then None
    else FirstDigit(t, a, k + 1)
  }

  /** The greedy digit run at `d`: extends the `n` digits already taken up to
      `MaxDigits`, stopping at the first non-digit or the end of the text. */
  function RunLength(t: string, d: nat, n: nat): (m: nat)
    requires n <= MaxDigits && d + n <= |t|
    requires forall j :: d <= j < d + n ==> IsDigit(t[j])
    ensures n <= m <= MaxDigits && d + m <= |t|
    ensures forall j :: d <= j < d + m ==> IsDigit(t[j])
    ensures m < MaxDigits ==> d + m == |t| || !IsDigit(t[d + m])
    decreases MaxDigits - n
  {
    if n < MaxDigits && d + n < |t| && IsDigit(t[d + n]) then RunLength(t, d, n + 1) else n
  }

  /** One match of the pattern: the keyword starts at `keywordAt`, the digits
      occupy `digitsAt..end`, and `value` is their decimal value. */
  datatype Capture = Capture(keywordAt: nat, digitsAt: nat, end: nat, value: nat)

  /** `c` is the match of the pattern starting at `p`: the digits are the
      first ones after the keyword, taken greedily. */
  ghost predicate ValidCapture(t: string, p: nat, c: Capture) {
    && c.keywordAt == p
    && OccursAt(t, Keyword, p)
    && ((OccursAt(t, LongKeyword, p) && GapReaches(t, p + |LongKeyword|, c.digitsAt))
        || GapReaches(t, p + |Keyword|, c.digitsAt))
    && c.digitsAt < c.end <= c.digitsAt + MaxDigits
    && c.end <= |t|
    && (forall j :: c.digitsAt <= j < c.end ==> IsDigit(t[j]))
    && (forall j :: p + |Keyword| <= j < c.digitsAt ==> !IsDigit(t[j]))
    && (c.end < c.digitsAt + MaxDigits ==> c.end == |t| || !IsDigit(t[c.end]))
    && c.value == DigitsValue(t[c.digitsAt..c.end])
    && c.value < 1000
  }

  /** The digits starting at `d`, read greedily into a capture for the keyword at `p`. */
  function TakeNumber(t: string, p: nat, d: nat): (c: Capture)
    requires d < |t| && IsDigit(t[d])
    ensures c.keywordAt == p && c.digitsAt == d && d < c.end <= d + MaxDigits && c.end <= |t|
    ensures forall j :: d <= j < c.end ==> IsDigit(t[j])
    ensures c.end < d + MaxDigits ==> c.end == |t| || !IsDigit(t[c.end])
    ensures c.value == DigitsValue(t[d..c.end]) && c.value < 1000
  {
    var m := RunLength(t, d, 1);
    var digits := t[d..d + m];
    assert forall j :: 0 <= j < |digits| ==> IsDigit(digits[j]);
    assert Pow10(m) <= 1000 by {
      assert Pow10(1) == 10 && Pow10(2) == 100 && Pow10(3) == 1000;
    }
    Capture(p, d, d + m, DigitsValue(digits))
  }

  /** The long keyword begins with the short one, and the two characters it
      adds (내지) are not digits. */
  lemma LongKeywordHasKeyword(t: string, p: nat)
    requires OccursAt(t, LongKeyword, p)
    ensures OccursAt(t, Keyword, p)
    ensures forall j :: p + |Keyword| <= j < p + |LongKeyword| ==> !IsDigit(t[j])
  {
    assert t[p..p + |Keyword|] == t[p..p + |LongKeyword|][..|Keyword|];
    assert t[p + 2] == LongKeyword[2] && t[p + 3] == LongKeyword[3];
  }

  /** The match attempted at `p`: the long keyword first, then the short one. */
  function MatchAt(t: string, p: nat): (r: Option<Capture>)
    ensures r.Some? ==> ValidCapture(t, p, r.value)
    ensures r.None? ==> !OccursAt(t, Keyword, p) || !GapFindsDigit(t, p + |Keyword|)
    ensures r.None? ==> !OccursAt(t, LongKeyword, p) || !GapFindsDigit(t, p + |LongKeyword|)
  {
    if OccursAt(t, LongKeyword, p) && FirstDigit(t, p + |LongKeyword|, 0).Some? then
      LongKeywordHasKeyword(t, p);
      Some(TakeNumber(t, p, FirstDigit(t, p + |LongKeyword|, 0).value))
    else if OccursAt(t, Keyword, p) && FirstDigit(t, p + |Keyword|, 0).Some? then
      Some(TakeNumber(t, p, FirstDigit(t, p + |Keyword|, 0).value))
    else
      None
  }

  /** The match attempted at each position of `t`. */
  function Matches(t: string): nat -> Option<Capture> {
    (k: nat) => MatchAt(t, k)
  }

  // The scan below is stated for any match function `m`; `Captures` uses
  // `Matches(t)`.

  /** No match starts anywhere in `a..b`. */
  ghost predicate NoneIn(m: nat -> Option<Capture>, a: nat, b: nat) {
    forall k :: a <= k < b ==> m(k).None?
  }

  /** Each of `cs` is the match at its keyword, from `p` on, without overlap. */
  ghost predicate ScanMatches(m: nat -> Option<Capture>, p: nat, cs: seq<Capture>) {
    && (forall i :: 0 <= i < |cs| ==> p <= cs[i].keywordAt && m(cs[i].keywordAt) == Some(cs[i]))
    && (forall i :: 0 <= i < |cs| ==> cs[i].keywordAt < cs[i].end)
    && (forall i :: 0 <= i < |cs| - 1 ==> cs[i].end <= cs[i + 1].keywordAt)
  }

  /** No match starts in `p..n` outside the captures of `cs`. */
  ghost predicate ScanGaps(m: nat -> Option<Capture>, n: nat, p: nat, cs: seq<Capture>) {
    && (|cs| == 0 ==> NoneIn(m, p, n))
    && (|cs| > 0 ==> NoneIn(m, p, cs[0].keywordAt) && NoneIn(m, cs[|cs| - 1].end, n))
    && (forall i :: 0 <= i < |cs| - 1 ==> NoneIn(m, cs[i].end, cs[i + 1].keywordAt))
  }

  /** `cs` is what `findall` reports when scanning `t` from `p`, in order: each
      is the match at its keyword, they do not overlap, and no match starts
      before the first, between two consecutive ones, or after the last. */
  ghost predicate IsScan(t: string, p: nat, cs: seq<Capture>) {
    ScanMatches(Matches(t), p, cs) && ScanGaps(Matches(t), |t|, p, cs)
  }

  /** Scanning from the end of the text reports nothing. */
  lemma ScanEnd(m: nat -> Option<Capture>, n: nat, p: nat)
    requires p >= n
    ensures ScanMatches(m, p, []) && ScanGaps(m, n, p, [])
  {
  }

  /** A match at `p` followed by the scan resumed after its digits. */
  lemma ScanMatch(m: nat -> Option<Capture>, n: nat, p: nat, c: Capture, rest: seq<Capture>)
    requires m(p) == Some(c) && c.keywordAt == p < c.end
    requires ScanMatches(m, c.end, rest) && ScanGaps(m, n, c.end, rest)
    ensures ScanMatches(m, p, [c] + rest) && ScanGaps(m, n, p, [c] + rest)
  {
    var cs := [c] + rest;
    forall i | 0 < i < |cs|
      ensures p <= cs[i].keywordAt && m(cs[i].keywordAt) == Some(cs[i])
      ensures cs[i].keywordAt < cs[i].end
    {
      assert cs[i] == rest[i - 1];
    }
    forall i | 0 < i < |cs| - 1
      ensures cs[i].end <= cs[i + 1].keywordAt
      ensures NoneIn(m, cs[i].end, cs[i + 1].keywordAt)
    {
      assert cs[i] == rest[i - 1] && cs[i + 1] == rest[i];
    }
    assert NoneIn(m, cs[|cs| - 1].end, n) by {
      if |rest| > 0 { assert cs[|cs| - 1] == rest[|rest| - 1]; }
    }
  }

  /** No match at `p`: the scan from `p + 1` is the scan from `p`. */
  lemma ScanSkip(m: nat -> Option<Capture>, n: nat, p: nat, cs: seq<Capture>)
    requires m(p).None?
    requires ScanMatches(m, p + 1, cs) && ScanGaps(m, n, p + 1, cs)
    ensures ScanMatches(m, p, cs) && ScanGaps(m, n, p, cs)
  {
  }

  /** The matches `findall` reports when scanning from `p`. */
  function Captures(t: string, p: nat): (cs: seq<Capture>)
    ensures IsScan(t, p, cs)
    decreases |t| - p
  {
    if p >= |t| then
      ScanEnd(Matches(t), |t|, p);
      []
    else match MatchAt(t, p)
      case Some(c) =>
        var rest := Captures(t, c.end);
        ScanMatch(Matches(t), |t|, p, c, rest);
        [c] + rest
      case None =>
        var cs := Captures(t, p + 1);
        ScanSkip(Matches(t), |t|, p, cs);
        cs
  }

  /** The numbers `findall` returns, in order. */
  function Numbers(cs: seq<Capture>): (ns: seq<nat>)
    ensures |ns| == |cs|
    ensures forall i :: 0 <= i < |cs| ==> ns[i] == cs[i].value
  {
    if |cs| == 0 then [] else [cs[0].value] + Numbers(cs[1..])
  }

  /** A match needs the keyword: text without 비닐 yields no numbers at all. */
  lemma CapturesNeedKeyword(t: string, p: nat)
    requires !Contains(t, Keyword)
    ensures Captures(t, p) == []
  {
    var cs := Captures(t, p);
    assert forall i :: 0 <= i < |cs| ==> OccursAt(t, Keyword, cs[i].keywordAt);
  }

  /** The scan skips no usable keyword: when no match starts between `q` and
      an occurrence of 비닐 at `p` whose gap reaches a digit, the first match
      starts at `p`, whatever keywords before it failed to match. */
  lemma {:induction false} FirstKeywordCaptured(t: string, q: nat, p: nat, d: nat)
    requires q <= p
    requires OccursAt(t, Keyword, p) && GapReaches(t, p + |Keyword|, d)
    requires forall k :: q <= k < p ==> MatchAt(t, k).None?
    ensures |Captures(t, q)| > 0 && Captures(t, q)[0].keywordAt == p
    decreases p - q
  {
    if q < p {
      FirstKeywordCaptured(t, q + 1, p, d);
    } else {
      assert MatchAt(t, p).Some?;
    }
  }
}

=== FILE: wrappers.dfy ===
/** The optional value used wherever the Python code returns `None` or a value. */
module Wrappers {

  datatype Option<+T> = None | Some(value: T) {

    /** The value, or `default` when there is none (Python's `d.get(k, default)`). */
    function GetOr(default: T): T {
      match this
      case Some(v) => v
      case None => default
    }
  }
}
